=== FILE: README.md ===
# Chat archiver: a verified model

This project models, in Dafny, the logic of a small browser extension. The extension captures
AI chat conversations from ChatGPT, Google Gemini and DeepSeek pages, stores them, and exports
them as JSON, TXT, Markdown or a printable page. The model covers these parts of the extension:

- **Site adapters** (`content.js`, module `Adapters`). A fixed, ordered registry of three
  adapters. Each adapter has a host-name predicate and an `extract` over the page's candidate
  message containers: a role rule, a choice of content element, and a filter. The filter drops
  empty texts, and for DeepSeek it also drops a text equal to the last accepted message's.
- **Content normaliser** (`content.js`, module `Dom`). `extractContentHTML` works on a tree of
  elements. It removes `.katex-html` subtrees, strips the class of `.katex-mathml` elements and
  gives them a fixed style, and removes `button`, `svg.copy-icon` and `ds-icon` subtrees. The
  root is never touched.
- **Capture controller** (`content.js`, modules `Capture` and `Debounce`). Adapter selection at
  start-up, the button/observer set-up, `saveCurrentChat` (empty extractions are refused, the
  title is derived, the `saveChat` request is built) and the autosave debounce. The debounce is
  a logical-clock state machine.
- **Popup operations** (`popup.js`, module `Export`). `exportData` (JSON at record level, TXT,
  Markdown, file name, MIME type), rename, delete and lookup by id.
- **Shared escaping** (`popup.js` and `print.js`, module `HtmlEscape`). `escapeHtml`, which both
  files define identically, the `\n` → `<br>` rewrite, and the decoders that undo both.
- **Print view** (`print.js`, module `PrintView`). The id check, the lookup, and one block per
  message: the stored HTML when it is non-empty, otherwise escaped text with `<br>` breaks.
- **Background worker** (`background.js`, module `Background`). First-install defaults, and the
  `saveChat` handler that prepends the new session and answers with its id.

`Chat` holds the shared records (messages, sessions, the `saveChat` request). `Strings` holds
the JavaScript string primitives the code uses: `trim` with ECMAScript's whitespace set,
`includes`/`indexOf`, `replace` with a string pattern (first occurrence only), `toUpperCase` and
`Number.prototype.toString`. `Lifecycle` connects capture, storage and printing.

Values the browser computes are inputs to the model:
- each element's `innerText`;
- the candidate elements the CSS selector engine returns, in document order;
- `innerHTML` serialisation (a function parameter `serialize`);
- `Date.now()` and the locale and ISO renderings of dates;
- the stored values.

The store is a record passed in and returned. The runtime message is a direct function call.

Points where the code's behaviour is easy to misread:
- The export file name removes only the first space of the website name, because
  `String.replace` with a string pattern replaces one occurrence. For the three adapter names
  this makes no difference (`Export.FileNameWebsiteSpaces`).
- ChatGPT messages carry the raw `data-message-author-role` value as their role, not a
  two-valued enumeration.
- The print view has two different notices: one for a missing id and one for an id that is
  not found.

## Model

| member | source | states |
|---|---|---|
| `Adapters.Detect` | content.js:91-98 | The chosen adapter's host predicate holds and no adapter registered before it matches; there is no adapter exactly when none of the three matches |
| `Adapters.RoleOf` | content.js:12-42 | ChatGPT's role is the author-role attribute; Gemini's is `user` iff the tag is `user-query`; DeepSeek's is `user` iff a user marker exists; Gemini and DeepSeek only produce `user`/`assistant` |
| `Adapters.ContentRegion` | content.js:13-43 | Text and markup come from the richer sub-element when ChatGPT or DeepSeek has one, else from the container; Gemini always uses the container |
| `Adapters.Select` | content.js:40-49 | The accepted messages are never more than the candidates, all have non-empty text, and for DeepSeek no two neighbours have equal text |
| `Adapters.Extract` | content.js:8-51 | Extraction yields at most one message per candidate, none with empty text, and no adjacent repeats for DeepSeek |
| `Adapters.SelectIsNonEmptyFilter` | content.js:11-16 | For ChatGPT and Gemini the accept loop equals an order-preserving filter on non-empty text |
| `Adapters.ExtractIsNonEmptyFilter` | content.js:8-32 | ChatGPT and Gemini extraction is exactly the candidates with non-empty trimmed text, in page order |
| `Adapters.DeepSeekLastText` | content.js:46 | DeepSeek's output is empty iff no candidate has text, and its last message carries the last non-empty text seen |
| `Adapters.DeepSeekSelectIsCollapsedFilter` | content.js:40-49 | DeepSeek's accept loop equals filtering empty texts and then collapsing each run of equal texts to its first message |
| `Adapters.DeepSeekIsCollapsedFilter` | content.js:37-51 | DeepSeek extraction equals the non-empty filter with runs of equal text collapsed |
| `Adapters.DeepSeekDropsImmediateRepeat` | content.js:46-48 | Of two consecutive candidates with the same non-empty text, DeepSeek keeps the first and drops the second |
| `Adapters.AllNonEmptyKept` | content.js:26-30 | When every text is non-empty, ChatGPT and Gemini keep every candidate, unchanged and in order |
| `Adapters.ChatGPTKeepsEveryNonEmpty` | content.js:10-16 | Candidates with non-empty text (e.g. user, assistant, user) give that many messages with those roles in that order |
| `Dom.Prune` | content.js:63 | Removing matching elements leaves no match anywhere below the root, never grows the list, and keeps every non-matching sibling with its own subtree pruned |
| `Dom.PruneOnlyKeeps` | content.js:63-72 | `remove()` only detaches: every node left is a non-matching input node with its subtree pruned, so nothing new is inserted |
| `Dom.RevealElem` | content.js:67-68 | A `.katex-mathml` element loses its class attribute and gets the fixed style; any other element is unchanged; the tag never changes |
| `Dom.Reveal` | content.js:66-69 | The MathML pass keeps the tree's shape, rewrites every `.katex-mathml` descendant (nested ones too), and leaves none behind |
| `Dom.Normalize` | content.js:59-75 | The root is kept as is; the children are exactly the one-walk reference `Clean` of the original children (every other element stays in place, revealed); no descendant is `.katex-html`, `.katex-mathml`, a button, a `ds-icon` or an `svg.copy-icon` |
| `Dom.PassesAreClean` | content.js:63-72 | The three passes in source order equal one walk that drops KaTeX visual layers and elements that are chrome once revealed, and keeps every other element revealed, in place |
| `Dom.PruneAppend` | content.js:63 | A removal pass works sibling by sibling: survivors keep their order and number |
| `Dom.PruneKeepsNoneMatch` | content.js:72 | Removing chrome cannot reintroduce KaTeX layers: a property absent everywhere stays absent |
| `Dom.RevealKeepsNoKatexHtml` | content.js:66-69 | Revealing MathML cannot create a `.katex-html` element |
| `Dom.PruneIdentity` | content.js:63 | With nothing to remove, a removal pass changes nothing |
| `Dom.RevealIdentity` | content.js:66-69 | With no `.katex-mathml` element, the reveal pass changes nothing |
| `Dom.CleanTreeUnchanged` | content.js:59-75 | A subtree with no KaTeX layer and no chrome comes out unchanged (other svgs survive) |
| `Dom.NormalizeIdempotent` | content.js:59-75 | Normalising twice is normalising once |
| `Dom.PlainChildSurvives` | content.js:72 | A child that is neither a KaTeX layer nor chrome, e.g. an svg without `copy-icon`, survives in its position with its element unchanged, between what remains of its earlier and later siblings |
| `Dom.MathmlCopyIconSurvives` | content.js:63-72 | Because the passes run in order, an svg with both `katex-mathml` and `copy-icon` is revealed and kept, not removed |
| `Capture.Title` | content.js:132 | The derived title is never empty and has no surrounding whitespace |
| `Capture.TitleOnChatGPTPage` | content.js:132 | With ` - ChatGPT` present, its first occurrence is cut out and later ones stay; then the first `Gemini` of the remainder, if any, is expanded; the result is trimmed, or `Untitled Chat` when blank |
| `Capture.TitleWithGeminiOnly` | content.js:132 | Without ` - ChatGPT`, the first `Gemini` becomes `Gemini Chat` and the result is trimmed; the fallback is never used |
| `Capture.TitleWithoutMarkers` | content.js:132 | A page title with neither site marker is just trimmed, or becomes `Untitled Chat` when blank |
| `Capture.TitleRemovesFirstSuffixOnly` | content.js:132 | Only the first ` - ChatGPT` is removed: `Plan - ChatGPT - ChatGPT` gives `Plan - ChatGPT` |
| `Capture.Init` | content.js:83-98 | The adapter exists iff some host predicate holds, and it is the first matching adapter in registration order; the button exists iff there is an adapter; the observer exists iff there is an adapter and `autoSave` is true |
| `Capture.SaveCurrentChat` | content.js:124-139 | Nothing is sent iff extraction is empty; otherwise the `saveChat` request has the adapter's name, the URL, the derived title and exactly the extracted messages |
| `Debounce.Advance` | content.js:165-167 | A pending save fires once its deadline is reached and is then cleared; otherwise nothing fires |
| `Debounce.Step` | content.js:163-168 | A due save fires first; a mutation on an armed page then replaces what is pending with a save 15000 ms later; any other event leaves a save that is not yet due pending; validity of the timer is kept |
| `Debounce.Run` | content.js:159-172 | The timer stays valid; without the observer no save ever fires |
| `Debounce.BurstLeavesOnePending` | content.js:163-168 | During a burst (gaps under 15000 ms) nothing fires and one save stays pending at last mutation + 15000 |
| `Debounce.BurstSavesOnce` | content.js:160-170 | A burst followed by quiet yields exactly one save, at last mutation + 15000 |
| `Debounce.EchoingAdvance` | content.js:121 | As the source behaves, a fired save is itself a mutation of the observed subtree: with no due save only the clock moves; a due save fires at its deadline and the next one is left pending within `SaveDelay` of the target instant; a pending save always stays pending after the target; the timer stays valid and earlier saves are kept |
| `Debounce.IdlePageKeepsSaving` | content.js:163-170 | With the save's own button write counted, an idle page with a pending save at d saves at d, d + 15000, ..., d + n * 15000 and has the next save pending |
| `Debounce.OneMutationSavesRepeatedly` | content.js:163-170 | One mutation at time 0 on an armed page leads to n + 1 saves by (n + 1) * 15000 |
| `Strings.Trim` | content.js:14 | The result is a slice of the input with only whitespace before and after it, has no leading or trailing whitespace, and is empty exactly when the input is all whitespace |
| `Strings.TrimIdempotent` | content.js:14 | Trimming an already trimmed text changes nothing |
| `Strings.ReplaceFirst` | content.js:132 | Without an occurrence the string is unchanged; otherwise only the first occurrence is replaced and the rest is kept |
| `Strings.ToUpper` | popup.js:137 | Upper-casing keeps the length and maps each character on its own |
| `Strings.ToUpperIdempotent` | popup.js:137 | The `[ROLE]` label has no ASCII lower-case letter left, and upper-casing it again changes nothing |
| `Strings.Decimal` | background.js:20 | The id text is a non-empty string of decimal digits |
| `Strings.DecimalRoundTrip` | background.js:20 | Reading the id back gives the clock value |
| `Strings.DecimalInjective` | background.js:20 | Different clock values give different ids |
| `HtmlEscape.ReplaceAllChar` | popup.js:166-168 | A global replacement leaves none of the replaced character when the replacement lacks it, and is the identity on text without it |
| `HtmlEscape.ReplaceAllIsSplitJoin` | popup.js:166-168 | A global replacement equals splitting at the character and joining the pieces with the replacement: the text between occurrences is kept as is and in order |
| `HtmlEscape.SplitJoinRestores` | popup.js:166-168 | Joining the split pieces with the character itself gives the text back, so splitting loses no other character |
| `HtmlEscape.EscapeHtml` | popup.js:164-169 | A missing value escapes to the empty string; the output contains no `<` and no `>` |
| `HtmlEscape.EscapeIsPerCharacter` | popup.js:165-168 | The three global replacements, `&` first, equal escaping each character on its own |
| `HtmlEscape.UnescapeEscapeEach` | popup.js:164-169 | Decoding the entities recovers the original text |
| `HtmlEscape.EscapeRoundTrip` | print.js:53-58 | `escapeHtml` is reversible and leaves no angle brackets |
| `HtmlEscape.NewlinesToBreaks` | print.js:40 | No newline remains after the `<br>` rewrite |
| `HtmlEscape.BreaksAreTheOnlyAngles` | print.js:40 | In rewritten escaped text every `<` opens a `<br>` |
| `HtmlEscape.BreaksRoundTrip` | print.js:40 | On text without `<`, turning `<br>` back into newlines recovers the text |
| `Chat.FindIndex` | popup.js:69 | The index of the first session with the id, or none exactly when no session has it |
| `Chat.Find` | print.js:12 | The first session with the id, or none exactly when no session has it |
| `Export.MimeType` | popup.js:124-131 | The MIME type is `application/json` exactly for the json export, otherwise `text/plain` |
| `Export.FileNameWebsiteSpaces` | popup.js:154 | The website part of the file name is space-free iff the website has at most one space |
| `Export.ToJson` | popup.js:127-131 | Every top-level field is kept; messages keep length and order and each is reduced to role and text |
| `Export.JsonRoundTrip` | popup.js:129 | Reading a JSON export back reproduces it, and reproduces the session except for the dropped HTML |
| `Export.BlocksAt` | popup.js:136-138 | The message at position k contributes its block right after the blocks of the messages before it and right before the blocks of the rest |
| `Export.BlocksAppend` | popup.js:136-138 | The per-message blocks of a split list are the blocks of each part, in order |
| `Export.TxtLayout` | popup.js:133-139 | The TXT export is the Title/Website/Date header, then the block `[ROLE]\r\n<text>\r\n\r\n` of each message, in order |
| `Export.TxtStartsWithTitle` | popup.js:134 | The TXT export starts with `Title: <title>` |
| `Export.MdRoleLabel` | popup.js:143 | The Markdown label is User exactly when the role is `user`, otherwise Assistant |
| `Export.MdLayout` | popup.js:140-146 | The Markdown export is its header, then one `### <label>` section per message, in order |
| `Export.MdStartsWithTitle` | popup.js:141 | The Markdown export starts with `# <title>` |
| `Export.ExportData` | popup.js:120-154 | A missing session produces no download; otherwise the file has the format's content, MIME type and the export file name |
| `Export.NewTitle` | popup.js:67 | The new title is the trimmed input, or the current title when the input is blank |
| `Export.Rename` | popup.js:66-74 | Only the first session with the id gets the new title; all else is unchanged; an unknown id changes nothing |
| `Export.RenameThenFind` | popup.js:69-71 | After a rename the id finds the renamed session and all ids stay in place |
| `Export.Delete` | popup.js:90 | No survivor has the id, every survivor was in the list, and every session with another id survives |
| `Export.DeleteAppend` | popup.js:90 | Deleting from a concatenation deletes from each part, so the survivors keep their original order |
| `Export.DeleteAbsentIsIdentity` | popup.js:90 | Deleting an absent id changes nothing |
| `Export.DeleteIdempotent` | popup.js:90 | Deleting twice is deleting once, and afterwards the id is not found |
| `PrintView.Label` | print.js:33 | The label is User exactly when the role is `user`, otherwise Assistant |
| `PrintView.TextFallback` | print.js:40 | The text fallback contains no raw newline |
| `PrintView.Content` | print.js:40 | A block shows the stored HTML when it is a non-empty string, otherwise the escaped text with `<br>` breaks |
| `PrintView.FallbackRecoversText` | print.js:40 | In the fallback the only `<` are from `<br>`, and undoing breaks and escaping gives back the text |
| `PrintView.RenderBlocks` | print.js:27-45 | Exactly one block per message, in order, with its role, label and content |
| `PrintView.Render` | print.js:5-45 | A missing or empty id shows only the no-id notice; an unknown id shows only the not-found notice; a stored id always gives a document of the first session with that id, titled `<title> - PDF Export`, with its blocks |
| `PrintView.PrintsOnlyFoundSessions` | print.js:12-50 | Printing is triggered exactly when the id is present and stored, and then there is one block per message |
| `Background.OnInstalled` | background.js:3-11 | Afterwards both keys are set; an existing list or flag is kept; a missing list becomes empty and a missing flag false |
| `Background.OnInstalledIdempotent` | background.js:4-11 | Running the install defaults again changes nothing |
| `Background.SessionTitle` | background.js:23 | The request's title when it is a non-empty string, otherwise `Chat - <date>` |
| `Background.NewSession` | background.js:19-26 | The new session copies website, URL and messages verbatim, with the clock's id and timestamp |
| `Background.HandleMessage` | background.js:14-35 | `saveChat` prepends the new session, keeps the flag and answers success with the new id; other actions change nothing and get no answer |
| `Background.SavePrepends` | background.js:28 | The list grows by one, the new session is first and is found by the returned id, and the old sessions follow unchanged |
| `Background.DistinctClocksDistinctIds` | background.js:20 | Saves at different clock readings get different ids |
| `Lifecycle.CaptureStoreAndPrint` | content.js:134-141 | A sent capture is stored with the adapter's name, URL, derived title and extracted messages, and its print view shows one block per message with the captured roles |

## Left out

- Browser-computed inputs. `innerText` rendering, the CSS selector engine and `innerHTML`
  serialisation are inputs, so which elements match `[class*="message"]`, nested DeepSeek
  matches and the exact markup string are not modelled.
- Chrome APIs. The asynchrony of `chrome.storage`, `chrome.runtime` and `chrome.tabs` is not
  modelled. Transport failures (`lastError`, a missing response) are not modelled either: the
  request is returned, not sent.
- DOM wiring. Not modelled:
  - the floating button: its markup, the "already injected" check, the label and opacity
    changes, and the 3000 ms reset;
  - alerts and console output;
  - the popup's list rendering, the auto-save toggle and the inline rename input;
  - the print page's element creation.
- Dates and printing. `Date`, `toLocaleString`, `toISOString`, `window.print` and its 600 ms
  delay, and the Blob/URL download mechanics are not modelled. Dates are given as text.
- JSON formatting. The byte-level output of `JSON.stringify(…, null, 2)` is not modelled; the
  JSON export is a record.
- Real timers. The `MutationObserver` and real timers are replaced by timed events. When a
  mutation arrives exactly at a pending save's deadline, the model lets the save fire first.
- Debounce.EchoingAdvance: counts only the button write at the instant a save fires. The later
  writes (the `SAVED_OK` label after the store answers, and the reset 3000 ms later) re-arm
  the timer again and push each following save further out, to 15 to 18 s apart.
- Markup content. A `Dom.Node` holds elements with their tag, class and style only; text nodes
  and other attributes are not modelled, so what `serialize` produces from the message text
  is not stated.
- Strings.ToUpper: upper-cases ASCII letters only. JavaScript's `toUpperCase` also maps other
  Unicode letters, some to several characters.
- Characters. JavaScript strings are UTF-16 code units; here a character is a Unicode scalar
  value, so an emoji label is one character.
- HtmlEscape.EscapeHtml: takes a string or a missing value. The source's `.toString()` of other
  value types is not modelled.

## Findings

| source | as written | input that shows it | evidently intended | confidence | as-written member | corrected member |
|---|---|---|---|---|---|---|
| content.js:115-121, 163-170 | The observer watches `childList` on the whole `document.body` subtree. The floating button is in that subtree, and every save attempt rewrites its `innerHTML`, so each autosave schedules the next one | An armed page with one mutation at 0 and no further activity saves at 15000, and then about every 18 s (the `SAVED_OK` label and its reset 3000 ms later re-arm the timer again); the model, which counts only the first button write, saves every 15000 ms. On a page with no messages the "nothing to save" alert repeats about every 15 s | Save once after chat activity settles, without reacting to the extension's own button | high; not executed | `Debounce.IdlePageKeepsSaving` | `Debounce.BurstSavesOnce` |

The corrected behaviour is the rest of the `Debounce` model: `Step` and `Run` react only to
the page's own mutations.

The `Lifecycle` lemma links capture, storage and printing. It does not model the popup reading
the same store concurrently.

=== FILE: adapters.dfy ===
/**
 * The site adapters (`SITE_ADAPTERS`) and their registry (`detectSite`). Each adapter
 * recognises its site by a host-name fragment and turns the page's candidate message
 * containers into role-tagged messages.
 *
 * What the browser computes is given: the CSS selector engine's candidate list, in
 * document order; each element's `innerText`; and `innerHTML` serialisation, a parameter
 * `serialize` applied to the normalised subtree.
 */
module Adapters {
  import opened Wrappers
  import opened Strings
  import opened Chat
  import Dom

  datatype Site = ChatGPT | Gemini | DeepSeek

  /** Registration order of `SITE_ADAPTERS`, which is the order `detectSite` tries them in. */
  const Registry: seq<Site> := [ChatGPT, Gemini, DeepSeek]

  /** Position of a site in `Registry`. */
  function Rank(s: Site): (r: nat)
    ensures r < |Registry| && Registry[r] == s
  {
    match s
    case ChatGPT => 0
    case Gemini => 1
    case DeepSeek => 2
  }

  /** The adapter's display name, which becomes the session's `website`. */
  function Name(s: Site): string
  {
    match s
    case ChatGPT => "ChatGPT"
    case Gemini => "Google Gemini"
    case DeepSeek => "DeepSeek"
  }

  /** The adapter's `match()` on `window.location.hostname`. */
  predicate Matches(s: Site, host: string)
  {
    match s
    case ChatGPT => Contains(host, "chatgpt.com") || Contains(host, "chat.openai.com")
    case Gemini => Contains(host, "gemini.google.com")
    case DeepSeek => Contains(host, "chat.deepseek.com")
  }

  /** The index in `sites` of the first site whose predicate holds. */
  function FirstMatch(sites: seq<Site>, host: string): (r: Option<nat>)
    ensures r.Some? ==> r.value < |sites| && Matches(sites[r.value], host)
    ensures r.Some? ==> forall j | 0 <= j < r.value :: !Matches(sites[j], host)
    ensures r.None? ==> forall j | 0 <= j < |sites| :: !Matches(sites[j], host)
  {
    if sites == [] then None
    else if Matches(sites[0], host) then Some(0)
    else match FirstMatch(sites[1..], host)
      case None => None
      case Some(i) => Some(i + 1)
  }

  /**
   * `detectSite`: the first adapter, in registration order, whose host predicate holds;
   * `None` exactly when no adapter matches.
   */
  function Detect(host: string): (r: Option<Site>)
    ensures r.Some? ==> Matches(r.value, host)
    ensures r.Some? ==> forall t: Site | Rank(t) < Rank(r.value) :: !Matches(t, host)
    ensures r.None? <==> forall t: Site :: !Matches(t, host)
  {
    match FirstMatch(Registry, host)
    case None =>
      assert forall t: Site :: !Matches(t, host) by {
        forall t: Site ensures !Matches(t, host) {
          assert Registry[Rank(t)] == t;
        }
      }
      None
    case Some(i) =>
      assert Rank(Registry[i]) == i;
      Some(Registry[i])
  }

  /** A DOM element as an adapter sees it: its subtree and its rendered `innerText`. */
  datatype Region = Region(node: Dom.Node, innerText: string)

  /**
   * One element the site's container selector returned: the element itself, the value of its
   * `data-message-author-role` attribute (ChatGPT), whether it has a user-marker descendant
   * (DeepSeek), and the first descendant matching the site's richer-content selector
   * (`.markdown` for ChatGPT, `.ds-markdown` for DeepSeek), if there is one.
   */
  datatype Candidate = Candidate(container: Region, authorRole: string, hasUserMarker: bool,
                                 richer: Option<Region>)

  /** The element whose text and markup are captured: the richer one when the site has one. */
  function ContentRegion(site: Site, c: Candidate): (r: Region)
    ensures site == Gemini || c.richer.None? ==> r == c.container
    ensures site != Gemini && c.richer.Some? ==> r == c.richer.value
  {
    if site == Gemini then c.container else c.richer.GetOr(c.container)
  }

  /** The role an adapter assigns to a container. */
  function RoleOf(site: Site, c: Candidate): (r: string)
    ensures site == ChatGPT ==> r == c.authorRole
    ensures site == Gemini ==> (r == "user" <==> c.container.node.el.tag == "user-query")
    ensures site == DeepSeek ==> (r == "user" <==> c.hasUserMarker)
    ensures site != ChatGPT ==> r in {"user", "assistant"}
  {
    match site
    case ChatGPT => c.authorRole
    case Gemini => if c.container.node.el.tag == "user-query" then "user" else "assistant"
    case DeepSeek => if c.hasUserMarker then "user" else "assistant"
  }

  /** The message a container would give if it is kept. */
  function MessageOf(site: Site, c: Candidate, serialize: Dom.Node -> string): Message
  {
    var content := ContentRegion(site, c);
    Message(RoleOf(site, c), Trim(content.innerText), Some(serialize(Dom.Normalize(content.node))))
  }

  /** The message each candidate would give, in document order. */
  function Messages(site: Site, cands: seq<Candidate>, serialize: Dom.Node -> string): (r: seq<Message>)
    ensures |r| == |cands|
    ensures forall i | 0 <= i < |cands| :: r[i] == MessageOf(site, cands[i], serialize)
  {
    seq(|cands|, i requires 0 <= i < |cands| => MessageOf(site, cands[i], serialize))
  }

  /**
   * Whether the `forEach` body pushes `m` onto the messages accepted so far: its trimmed text
   * must be non-empty, and DeepSeek also skips a text equal to the last accepted message's.
   */
  predicate Accepts(site: Site, accepted: seq<Message>, m: Message)
  {
    m.text != "" && (site != DeepSeek || accepted == [] || accepted[|accepted| - 1].text != m.text)
  }

  /** No two neighbouring messages have the same text. */
  predicate NoAdjacentRepeats(ms: seq<Message>)
  {
    forall k | 0 < k < |ms| :: ms[k - 1].text != ms[k].text
  }

  /** The `forEach` of `extract()`: each prospective message, in order, is pushed if accepted. */
  function Select(site: Site, ms: seq<Message>): (r: seq<Message>)
    ensures |r| <= |ms|
    ensures forall k | 0 <= k < |r| :: r[k].text != ""
    ensures site == DeepSeek ==> NoAdjacentRepeats(r)
    decreases |ms|
  {
    if ms == [] then []
    else
      var accepted := Select(site, ms[..|ms| - 1]);
      var m := ms[|ms| - 1];
      if Accepts(site, accepted, m) then accepted + [m] else accepted
  }

  /** The adapter's `extract()`. */
  function Extract(site: Site, cands: seq<Candidate>, serialize: Dom.Node -> string): (r: seq<Message>)
    ensures |r| <= |cands|
    ensures forall k | 0 <= k < |r| :: r[k].text != ""
    ensures site == DeepSeek ==> NoAdjacentRepeats(r)
  {
    Select(site, Messages(site, cands, serialize))
  }

  /** Reference definition: the messages with non-empty text, in order. */
  function NonEmpty(ms: seq<Message>): seq<Message>
  {
    if ms == [] then [] else (if ms[0].text != "" then [ms[0]] else []) + NonEmpty(ms[1..])
  }

  /** Reference definition: keep the first message of every run of neighbours with equal text. */
  function CollapseRepeats(ms: seq<Message>): seq<Message>
    decreases |ms|
  {
    if |ms| <= 1 then ms
    else
      var front := CollapseRepeats(ms[..|ms| - 1]);
      if ms[|ms| - 1].text == ms[|ms| - 2].text then front else front + [ms[|ms| - 1]]
  }

  lemma {:induction false} NonEmptySnoc(ms: seq<Message>, m: Message)
    ensures NonEmpty(ms + [m]) == NonEmpty(ms) + (if m.text != "" then [m] else [])
  {
    if ms != [] {
      assert (ms + [m])[1..] == ms[1..] + [m];
      NonEmptySnoc(ms[1..], m);
    } else {
      assert NonEmpty([m][1..]) == [];
    }
  }

  /**
   * ChatGPT and Gemini selection is an order-preserving filter: exactly the messages whose
   * trimmed text is non-empty.
   */
  lemma {:induction false} SelectIsNonEmptyFilter(site: Site, ms: seq<Message>)
    requires site != DeepSeek
    ensures Select(site, ms) == NonEmpty(ms)
    decreases |ms|
  {
    if ms != [] {
      var front := ms[..|ms| - 1];
      SelectIsNonEmptyFilter(site, front);
      NonEmptySnoc(front, ms[|ms| - 1]);
      assert front + [ms[|ms| - 1]] == ms;
    }
  }

  /** DeepSeek's last accepted message always carries the last non-empty text seen so far. */
  lemma {:induction false} DeepSeekLastText(ms: seq<Message>)
    ensures var ne := NonEmpty(ms); var r := Select(DeepSeek, ms);
      && (r == [] <==> ne == [])
      && (ne != [] ==> r[|r| - 1].text == ne[|ne| - 1].text)
    decreases |ms|
  {
    if ms != [] {
      var front := ms[..|ms| - 1];
      assert front + [ms[|ms| - 1]] == ms;
      DeepSeekLastText(front);
      NonEmptySnoc(front, ms[|ms| - 1]);
    }
  }

  /** Appending a message to a non-empty list collapses it into the last run iff the texts are equal. */
  lemma CollapseSnoc(ms: seq<Message>, m: Message)
    requires ms != []
    ensures CollapseRepeats(ms + [m])
      == if m.text == ms[|ms| - 1].text then CollapseRepeats(ms) else CollapseRepeats(ms) + [m]
  {
    var ms' := ms + [m];
    assert ms'[..|ms'| - 1] == ms;
    assert ms'[|ms'| - 2] == ms[|ms| - 1];
  }

  /**
   * DeepSeek selection drops the empty texts and then every message whose text repeats its
   * predecessor's.
   */
  lemma {:induction false} DeepSeekSelectIsCollapsedFilter(ms: seq<Message>)
    ensures Select(DeepSeek, ms) == CollapseRepeats(NonEmpty(ms))
    decreases |ms|
  {
    if ms != [] {
      var front := ms[..|ms| - 1];
      var m := ms[|ms| - 1];
      assert front + [m] == ms;
      DeepSeekSelectIsCollapsedFilter(front);
      DeepSeekLastText(front);
      NonEmptySnoc(front, m);
      var ne := NonEmpty(front);
      var sel := Select(DeepSeek, front);
      assert Select(DeepSeek, ms) == if Accepts(DeepSeek, sel, m) then sel + [m] else sel;
      if m.text == "" {
        assert NonEmpty(ms) == ne;
      } else {
        assert NonEmpty(ms) == ne + [m];
        if ne == [] {
          assert CollapseRepeats([m]) == [m];
        } else {
          CollapseSnoc(ne, m);
        }
      }
    }
  }

  /** ChatGPT and Gemini extraction keeps exactly the candidates with non-empty trimmed text, in page order. */
  lemma ExtractIsNonEmptyFilter(site: Site, cands: seq<Candidate>, serialize: Dom.Node -> string)
    requires site != DeepSeek
    ensures Extract(site, cands, serialize) == NonEmpty(Messages(site, cands, serialize))
  {
    SelectIsNonEmptyFilter(site, Messages(site, cands, serialize));
  }

  /** DeepSeek extraction is the non-empty filter with runs of equal text collapsed to their first message. */
  lemma DeepSeekIsCollapsedFilter(cands: seq<Candidate>, serialize: Dom.Node -> string)
    ensures Extract(DeepSeek, cands, serialize) == CollapseRepeats(NonEmpty(Messages(DeepSeek, cands, serialize)))
  {
    DeepSeekSelectIsCollapsedFilter(Messages(DeepSeek, cands, serialize));
  }

  /**
   * When every candidate has non-empty trimmed text, ChatGPT keeps all of them, in page order,
   * each with its author-role attribute as role (for example `user`, `assistant`, `user`).
   */
  lemma {:induction false} AllNonEmptyKept(site: Site, ms: seq<Message>)
    requires site != DeepSeek
    requires forall i | 0 <= i < |ms| :: ms[i].text != ""
    ensures Select(site, ms) == ms
    decreases |ms|
  {
    if ms != [] {
      AllNonEmptyKept(site, ms[..|ms| - 1]);
      assert ms[..|ms| - 1] + [ms[|ms| - 1]] == ms;
    }
  }

  lemma ChatGPTKeepsEveryNonEmpty(cands: seq<Candidate>, serialize: Dom.Node -> string)
    requires forall i | 0 <= i < |cands| :: Trim(ContentRegion(ChatGPT, cands[i]).innerText) != ""
    ensures |Extract(ChatGPT, cands, serialize)| == |cands|
    ensures forall i | 0 <= i < |cands| :: Extract(ChatGPT, cands, serialize)[i].role == cands[i].authorRole
  {
    AllNonEmptyKept(ChatGPT, Messages(ChatGPT, cands, serialize));
  }

  /** DeepSeek keeps the first of two neighbouring messages with the same non-empty text and drops the second. */
  lemma DeepSeekDropsImmediateRepeat(ms: seq<Message>, a: Message, b: Message)
    requires a.text != "" && a.text == b.text
    ensures Select(DeepSeek, ms + [a, b]) == Select(DeepSeek, ms + [a])
    ensures var r := Select(DeepSeek, ms + [a]); |r| > 0 && r[|r| - 1].text == a.text
  {
    assert (ms + [a, b])[..|ms| + 1] == ms + [a];
    assert (ms + [a])[..|ms|] == ms;
  }
}

=== FILE: background.dfy ===
/**
 * The background worker: first-install defaults of the store and the `saveChat` handler.
 * The store is an explicit value passed in and returned; `Date.now()`, the locale rendering
 * and the ISO rendering of the current instant are given in a `Clock`.
 */
module Background {
  import opened Wrappers
  import opened Strings
  import opened Chat

  /** The keys the extension keeps in `chrome.storage.local`; `None` for a key never written. */
  datatype Store = Store(chats: Option<seq<Session>>, autoSave: Option<bool>)

  /** The current instant: milliseconds since the epoch, its locale text and its ISO text. */
  datatype Clock = Clock(millis: nat, locale: string, iso: string)

  /** `onInstalled`: a missing session list becomes empty and a missing flag becomes false. */
  function OnInstalled(st: Store): (r: Store)
    ensures r.chats.Some? && r.autoSave.Some?
    ensures st.chats.Some? ==> r.chats == st.chats
    ensures st.chats.None? ==> r.chats == Some([])
    ensures st.autoSave.Some? ==> r.autoSave == st.autoSave
    ensures st.autoSave.None? ==> r.autoSave == Some(false)
  {
    Store(if st.chats.None? then Some([]) else st.chats,
          if st.autoSave.None? then Some(false) else st.autoSave)
  }

  /** Installing again changes nothing. */
  lemma OnInstalledIdempotent(st: Store)
    ensures OnInstalled(OnInstalled(st)) == OnInstalled(st)
  {
  }

  /** The title a new session gets: the request's when it is a non-empty string, else `Chat - <date>`. */
  function SessionTitle(requested: Option<string>, clock: Clock): (r: string)
    ensures requested.Some? && requested.value != "" ==> r == requested.value
    ensures requested.None? || requested.value == "" ==> r == "Chat - " + clock.locale
  {
    if requested.Some? && requested.value != "" then requested.value else "Chat - " + clock.locale
  }

  /** The session a `saveChat` request creates. */
  function NewSession(data: SaveData, clock: Clock): (s: Session)
    ensures s.id == Decimal(clock.millis)
    ensures s.website == data.website && s.url == data.url && s.messages == data.messages
    ensures s.title == SessionTitle(data.title, clock) && s.timestamp == clock.iso
  {
    Session(Decimal(clock.millis), data.website, data.url, SessionTitle(data.title, clock),
            data.messages, clock.iso)
  }

  datatype Response = Response(success: bool, id: string)

  /** The store after a message, and the response sent back (none for other actions). */
  datatype Handled = Handled(store: Store, response: Option<Response>)

  /**
   * The `onMessage` listener. A `saveChat` request puts the new session at the front of the
   * stored list (an absent list counts as empty) and answers with success and its id; any
   * other action is ignored.
   */
  function HandleMessage(req: Request, st: Store, clock: Clock): (h: Handled)
    ensures req.action != SaveChatAction ==> h == Handled(st, None)
    ensures req.action == SaveChatAction ==>
      && h.store.autoSave == st.autoSave
      && h.store.chats == Some([NewSession(req.data, clock)] + st.chats.GetOr([]))
      && h.response == Some(Response(true, Decimal(clock.millis)))
  {
    if req.action != SaveChatAction then Handled(st, None)
    else
      var chat := NewSession(req.data, clock);
      Handled(st.(chats := Some([chat] + st.chats.GetOr([]))), Some(Response(true, chat.id)))
  }

  /**
   * After a save the list is one longer, the new session is first and is what its id finds,
   * and the earlier sessions follow unchanged and in order.
   */
  lemma SavePrepends(req: Request, st: Store, clock: Clock)
    requires req.action == SaveChatAction
    ensures var after := HandleMessage(req, st, clock).store.chats.value;
      && |after| == |st.chats.GetOr([])| + 1
      && after[1..] == st.chats.GetOr([])
      && after[0].messages == req.data.messages
      && Find(after, HandleMessage(req, st, clock).response.value.id) == Some(after[0])
  {
    var after := HandleMessage(req, st, clock).store.chats.value;
    assert after[1..] == st.chats.GetOr([]);
  }

  /** Saves made at different clock readings get different ids. */
  lemma DistinctClocksDistinctIds(a: Clock, b: Clock, d1: SaveData, d2: SaveData)
    requires a.millis != b.millis
    ensures NewSession(d1, a).id != NewSession(d2, b).id
  {
    DecimalInjective(a.millis, b.millis);
  }
}

=== FILE: capture.dfy ===
/**
 * The capture controller (`ChatExtractor`): adapter selection at page start, and
 * `saveCurrentChat`, which extracts, refuses an empty result, derives a title and builds
 * the `saveChat` request. Button label and opacity changes, alerts and the transport
 * itself are not modelled; the request is returned instead of sent.
 */
module Capture {
  import opened Wrappers
  import opened Strings
  import opened Chat
  import Dom
  import Adapters

  const UntitledChat: string := "Untitled Chat"

  /**
   * The session title derived from `document.title`: the first ` - ChatGPT` is removed, the
   * first `Gemini` becomes `Gemini Chat`, the result is trimmed, and a blank result falls
   * back to `Untitled Chat`.
   */
  function Title(docTitle: string): (r: string)
    ensures r != ""
    ensures !IsWhitespace(r[0]) && !IsWhitespace(r[|r| - 1])
  {
    var t := Trim(ReplaceFirst(ReplaceFirst(docTitle, " - ChatGPT", ""), "Gemini", "Gemini Chat"));
    if t == "" then UntitledChat else t
  }

  /**
   * On a ChatGPT page title the first ` - ChatGPT` is cut out, wherever it occurs, and later
   * occurrences stay; then the first `Gemini` of what is left, if any, becomes `Gemini Chat`,
   * and the result is trimmed, or replaced when blank.
   */
  lemma TitleOnChatGPTPage(docTitle: string)
    requires Contains(docTitle, " - ChatGPT")
    ensures var i := IndexOf(docTitle, " - ChatGPT").value;
      var rest := ReplaceFirst(docTitle[..i] + docTitle[i + 10..], "Gemini", "Gemini Chat");
      Title(docTitle) == if IsBlank(rest) then UntitledChat else Trim(rest)
  {
    var i := IndexOf(docTitle, " - ChatGPT").value;
    var cut := docTitle[..i] + docTitle[i + 10..];
    var x := ReplaceFirst(docTitle, " - ChatGPT", "");
    assert x == x[..i] + x[i..];
    assert x == cut;
  }

  /**
   * On a title without ` - ChatGPT` (whatever the site), the first `Gemini` becomes
   * `Gemini Chat` and the result is trimmed; it is never blank, so the fallback title is not
   * used.
   */
  lemma TitleWithGeminiOnly(docTitle: string)
    requires !Contains(docTitle, " - ChatGPT") && Contains(docTitle, "Gemini")
    ensures var j := IndexOf(docTitle, "Gemini").value;
      Title(docTitle) == Trim(docTitle[..j] + "Gemini Chat" + docTitle[j + 6..])
  {
    var j := IndexOf(docTitle, "Gemini").value;
    assert ReplaceFirst(docTitle, " - ChatGPT", "") == docTitle;
    var y := ReplaceFirst(docTitle, "Gemini", "Gemini Chat");
    assert y == y[..j] + y[j..j + 11] + y[j + 11..];
    assert y == docTitle[..j] + "Gemini Chat" + docTitle[j + 6..];
    assert y[j] == 'G' && !IsWhitespace(y[j]);
  }

  /** A page title without either site marker is only trimmed, or replaced when blank. */
  lemma TitleWithoutMarkers(docTitle: string)
    requires !Contains(docTitle, " - ChatGPT") && !Contains(docTitle, "Gemini")
    ensures IsBlank(docTitle) ==> Title(docTitle) == UntitledChat
    ensures !IsBlank(docTitle) ==> Title(docTitle) == Trim(docTitle)
  {
  }

  /** In the example title the first ` - ChatGPT` starts right after `Plan`. */
  lemma FirstSuffixAt()
    ensures IndexOf("Plan - ChatGPT - ChatGPT", " - ChatGPT") == Some(4)
  {
    var page, suffix := "Plan - ChatGPT - ChatGPT", " - ChatGPT";
    forall j | 0 <= j < 4 ensures !OccursAt(page, suffix, j) {
      assert page[j..j + |suffix|][0] == page[j];
    }
    assert page[4..14] == suffix;
    assert IndexOfFrom(page, suffix, 4) == Some(4);
    assert IndexOfFrom(page, suffix, 3) == Some(4);
    assert IndexOfFrom(page, suffix, 2) == Some(4);
    assert IndexOfFrom(page, suffix, 1) == Some(4);
  }

  lemma FirstSuffixReplaced()
    ensures ReplaceFirst("Plan - ChatGPT - ChatGPT", " - ChatGPT", "") == "Plan - ChatGPT"
  {
    var page, suffix := "Plan - ChatGPT - ChatGPT", " - ChatGPT";
    FirstSuffixAt();
    var x := ReplaceFirst(page, suffix, "");
    assert x[..4] == page[..4] && x[4..] == page[14..];
    assert x == x[..4] + x[4..];
    assert page[..4] == "Plan" by {
      assert |page[..4]| == 4 && forall k | 0 <= k < 4 :: page[..4][k] == "Plan"[k];
    }
    assert page[14..] == suffix;
  }

  lemma RemainderUnchanged()
    ensures ReplaceFirst("Plan - ChatGPT", "Gemini", "Gemini Chat") == "Plan - ChatGPT"
    ensures Trim("Plan - ChatGPT") == "Plan - ChatGPT"
  {
    var once := "Plan - ChatGPT";
    forall j | 0 <= j ensures !OccursAt(once, "Gemini", j) {
      if j + 6 <= |once| {
        assert once[j..j + 6][0] == once[j];
      }
    }
    assert LeadingEnd(once, 0) == 0;
    assert TrailingStart(once, |once|) == |once|;
    assert once[0..|once|] == once;
  }

  /** Only the first ` - ChatGPT` is removed, as `String.prototype.replace` with a string pattern does. */
  lemma TitleRemovesFirstSuffixOnly()
    ensures Title("Plan - ChatGPT - ChatGPT") == "Plan - ChatGPT"
  {
    FirstSuffixReplaced();
    RemainderUnchanged();
  }

  /** What content-script start-up sets up on a page. */
  datatype Page = Page(adapter: Option<Adapters.Site>, button: bool, observing: bool)

  /**
   * `new ChatExtractor()`: the adapter is the registry's first match; the floating button and
   * the mutation observer exist only when there is one, and the observer only when the
   * stored `autoSave` flag is true.
   */
  function Init(host: string, autoSave: Option<bool>): (p: Page)
    ensures p.adapter.Some? <==> exists t: Adapters.Site :: Adapters.Matches(t, host)
    ensures p.adapter.Some? ==> Adapters.Matches(p.adapter.value, host)
    ensures p.adapter.Some? ==>
      forall t: Adapters.Site | Adapters.Rank(t) < Adapters.Rank(p.adapter.value) :: !Adapters.Matches(t, host)
    ensures p.button <==> p.adapter.Some?
    ensures p.observing <==> p.adapter.Some? && autoSave == Some(true)
  {
    var adapter := Adapters.Detect(host);
    Page(adapter, adapter.Some?, adapter.Some? && autoSave.GetOr(false))
  }

  /** The result of one capture run. */
  datatype Outcome = NothingToSave | Send(request: Request)

  /**
   * `saveCurrentChat` for the page's adapter: nothing is sent when extraction is empty;
   * otherwise a `saveChat` request carries the adapter's name, the page address, the derived
   * title and exactly the extracted messages.
   */
  function SaveCurrentChat(site: Adapters.Site, cands: seq<Adapters.Candidate>, docTitle: string,
                           href: string, serialize: Dom.Node -> string): (r: Outcome)
    ensures r.NothingToSave? <==> Adapters.Extract(site, cands, serialize) == []
    ensures r.Send? ==>
      && r.request.action == SaveChatAction
      && r.request.data.website == Adapters.Name(site)
      && r.request.data.url == href
      && r.request.data.title == Some(Title(docTitle))
      && r.request.data.messages == Adapters.Extract(site, cands, serialize)
      && |r.request.data.messages| > 0
  {
    var messages := Adapters.Extract(site, cands, serialize);
    if |messages| == 0 then NothingToSave
    else Send(Request(SaveChatAction, SaveData(Adapters.Name(site), href, Some(Title(docTitle)), messages)))
  }
}

=== FILE: chat.dfy ===
/** The records the extension stores and exchanges. */
module Chat {
  import opened Wrappers

  /**
   * One message of a conversation. `role` is the site's own role string (ChatGPT passes its
   * `data-message-author-role` value through), `text` the trimmed rendered text, and `html`
   * the normalised markup, which sessions saved by older versions lack.
   */
  datatype Message = Message(role: string, text: string, html: Option<string>)

  /**
   * One stored conversation. `id` is the decimal clock value at save time and `timestamp`
   * the ISO rendering of the save instant.
   */
  datatype Session = Session(id: string, website: string, url: string, title: string,
                             messages: seq<Message>, timestamp: string)

  /** `chats.findIndex(c => c.id === id)`: the index of the first session with that id. */
  function FindIndex(chats: seq<Session>, id: string): (r: Option<nat>)
    ensures r.Some? ==> r.value < |chats| && chats[r.value].id == id
    ensures r.Some? ==> forall j | 0 <= j < r.value :: chats[j].id != id
    ensures r.None? <==> forall j | 0 <= j < |chats| :: chats[j].id != id
  {
    if chats == [] then None
    else if chats[0].id == id then Some(0)
    else match FindIndex(chats[1..], id)
      case None => None
      case Some(i) => Some(i + 1)
  }

  /** `chats.find(c => c.id === id)`: the first session with that id, if any. */
  function Find(chats: seq<Session>, id: string): (r: Option<Session>)
    ensures r.None? <==> forall j | 0 <= j < |chats| :: chats[j].id != id
    ensures r.Some? ==> r.value.id == id && r.value in chats
    ensures r.Some? ==> FindIndex(chats, id).Some? && r.value == chats[FindIndex(chats, id).value]
  {
    match FindIndex(chats, id)
    case None => None
    case Some(i) => Some(chats[i])
  }

  /** The `data` of a `saveChat` request; `title` may be missing or empty. */
  datatype SaveData = SaveData(website: string, url: string, title: Option<string>, messages: seq<Message>)

  /** A runtime message from a content script to the background worker. */
  datatype Request = Request(action: string, data: SaveData)

  const SaveChatAction: string := "saveChat"
}

=== FILE: debounce.dfy ===
/**
 * The autosave debounce of `setupAutoSaveObserver`, as a state machine on a logical clock.
 * Every DOM mutation cancels the pending save and schedules a new one `SaveDelay`
 * milliseconds later; a save fires when the clock reaches its deadline. Real timers and the
 * `MutationObserver` are replaced by a sequence of timed events.
 *
 * `Advance`, `Step` and `Run` count only the page's own mutations, not the extension's writes
 * to its own button. In the source a save also rewrites that button, which sits inside the
 * observed subtree; `EchoingAdvance` models that, and `IdlePageKeepsSaving` shows its effect.
 */
module Debounce {
  import opened Wrappers

  /** The `setTimeout` delay of an autosave, in milliseconds. */
  const SaveDelay: int := 15000

  /**
   * The autosave state of one page: `armed` when the observer was installed (the stored
   * `autoSave` flag was true), the logical clock, the deadline of the pending save if any,
   * and the instants at which saves have fired so far.
   */
  datatype Timer = Timer(armed: bool, now: int, deadline: Option<int>, saves: seq<int>)

  /** A DOM mutation observed at `at`, or the clock running on to `until` with no mutation. */
  datatype Event = Mutation(at: int) | Elapse(until: int)

  function Time(e: Event): int
  {
    match e
    case Mutation(at) => at
    case Elapse(until) => until
  }

  /** A pending save exists only on an armed page, and lies in the future. */
  predicate Valid(t: Timer)
  {
    t.deadline.Some? ==> t.armed && t.now < t.deadline.value
  }

  /** The clock runs on to `at`; a pending save whose deadline has come fires and is cleared. */
  function Advance(t: Timer, at: int): (r: Timer)
    requires t.now <= at
    ensures r.now == at && r.armed == t.armed
    ensures t.deadline.Some? && t.deadline.value <= at ==>
      r.deadline.None? && r.saves == t.saves + [t.deadline.value]
    ensures !(t.deadline.Some? && t.deadline.value <= at) ==>
      r.deadline == t.deadline && r.saves == t.saves
  {
    match t.deadline
    case Some(d) =>
      if d <= at then Timer(t.armed, at, None, t.saves + [d]) else t.(now := at)
    case None => t.(now := at)
  }

  /**
   * One event. A mutation on an armed page runs `clearTimeout` and `setTimeout`: whatever was
   * pending and not yet due is dropped, and a save is scheduled `SaveDelay` after the mutation.
   * A save that fell due before the event has already fired.
   */
  function Step(t: Timer, e: Event): (r: Timer)
    requires t.now <= Time(e)
    ensures Valid(t) ==> Valid(r)
    ensures r.now == Time(e) && r.armed == t.armed
    ensures e.Mutation? && t.armed ==> r.deadline == Some(e.at + SaveDelay)
    ensures !(e.Mutation? && t.armed) && t.deadline.Some? && t.deadline.value <= Time(e) ==> r.deadline.None?
    ensures !(e.Mutation? && t.armed) && !(t.deadline.Some? && t.deadline.value <= Time(e)) ==>
      r.deadline == t.deadline
    ensures t.deadline.Some? && t.deadline.value <= Time(e) ==> r.saves == t.saves + [t.deadline.value]
    ensures !(t.deadline.Some? && t.deadline.value <= Time(e)) ==> r.saves == t.saves
  {
    var advanced := Advance(t, Time(e));
    if e.Mutation? && t.armed then advanced.(deadline := Some(e.at + SaveDelay)) else advanced
  }

  /** The events happen in time order, none before `from`. */
  predicate Chronological(from: int, es: seq<Event>)
  {
    && (|es| > 0 ==> from <= Time(es[0]))
    && forall i | 0 < i < |es| :: Time(es[i - 1]) <= Time(es[i])
  }

  /** The timer after a sequence of events. */
  function Run(t: Timer, es: seq<Event>): (r: Timer)
    requires Chronological(t.now, es)
    ensures Valid(t) ==> Valid(r)
    ensures Valid(t) && !t.armed ==> r.saves == t.saves
    decreases |es|
  {
    if es == [] then t else Run(Step(t, es[0]), es[1..])
  }

  lemma {:induction false} RunAppend(t: Timer, a: seq<Event>, b: seq<Event>)
    requires Chronological(t.now, a + b)
    ensures Chronological(t.now, a)
    ensures Chronological(Run(t, a).now, b)
    ensures Run(t, a + b) == Run(Run(t, a), b)
    decreases |a|
  {
    if a == [] {
      assert a + b == b;
    } else {
      assert (a + b)[1..] == a[1..] + b;
      assert (a + b)[0] == a[0];
      RunAppend(Step(t, a[0]), a[1..], b);
    }
  }

  /** The events of a sequence of mutation instants. */
  function Mutations(ms: seq<int>): (es: seq<Event>)
    ensures |es| == |ms|
    ensures forall i | 0 <= i < |ms| :: es[i] == Mutation(ms[i])
  {
    seq(|ms|, i requires 0 <= i < |ms| => Mutation(ms[i]))
  }

  /** A burst: mutations in time order, each less than `SaveDelay` after the one before. */
  predicate Burst(ms: seq<int>)
  {
    && |ms| > 0
    && forall i | 0 < i < |ms| :: ms[i - 1] <= ms[i] < ms[i - 1] + SaveDelay
  }

  /**
   * During a burst no save fires, whatever was pending before it is cancelled by its first
   * mutation, and one save is left pending `SaveDelay` after its last mutation.
   */
  lemma {:induction false} BurstLeavesOnePending(t: Timer, ms: seq<int>)
    requires Valid(t) && t.armed && Burst(ms) && t.now <= ms[0]
    requires t.deadline.None? || ms[0] < t.deadline.value
    ensures Chronological(t.now, Mutations(ms))
    ensures Run(t, Mutations(ms)) == Timer(true, ms[|ms| - 1], Some(ms[|ms| - 1] + SaveDelay), t.saves)
    decreases |ms|
  {
    var t1 := Step(t, Mutation(ms[0]));
    if |ms| > 1 {
      assert Mutations(ms)[1..] == Mutations(ms[1..]);
      BurstLeavesOnePending(t1, ms[1..]);
    }
  }

  /**
   * A burst of mutations on an armed page with nothing pending yields exactly one autosave,
   * at the last mutation plus `SaveDelay`, once the clock gets there.
   */
  lemma BurstSavesOnce(t: Timer, ms: seq<int>)
    requires Valid(t) && t.armed && t.deadline.None? && Burst(ms) && t.now <= ms[0]
    ensures var es := Mutations(ms) + [Elapse(ms[|ms| - 1] + SaveDelay)];
      Chronological(t.now, es) && Run(t, es).saves == t.saves + [ms[|ms| - 1] + SaveDelay]
  {
    var last := ms[|ms| - 1];
    var es := Mutations(ms) + [Elapse(last + SaveDelay)];
    BurstLeavesOnePending(t, ms);
    assert Chronological(t.now, es);
    RunAppend(t, Mutations(ms), [Elapse(last + SaveDelay)]);
  }

  /**
   * The clock as the source actually behaves: `saveCurrentChat` rewrites the floating
   * button's label, and the button sits inside the observed `document.body` subtree, so each
   * save that fires is itself a mutation at that instant and schedules the next save
   * `SaveDelay` later.
   */
  function EchoingAdvance(t: Timer, at: int): (r: Timer)
    requires Valid(t) && t.now <= at
    ensures Valid(r) && r.now == at && r.armed == t.armed
    ensures |r.saves| >= |t.saves| && r.saves[..|t.saves|] == t.saves
    ensures t.deadline.None? || at < t.deadline.value ==> r == t.(now := at)
    ensures t.deadline.Some? ==> r.deadline.Some? && at < r.deadline.value
    ensures t.deadline.Some? && t.deadline.value <= at ==>
      |r.saves| > |t.saves| && r.saves[|t.saves|] == t.deadline.value && r.deadline.value <= at + SaveDelay
    decreases at - t.now
  {
    match t.deadline
    case Some(d) =>
      if d <= at then EchoingAdvance(Timer(t.armed, d, Some(d + SaveDelay), t.saves + [d]), at)
      else t.(now := at)
    case None => t.(now := at)
  }

  /**
   * Once a save is pending, an otherwise idle page keeps saving: by `n` periods after the
   * first deadline `d`, saves have fired at `d`, `d + SaveDelay`, ..., `d + n * SaveDelay`,
   * and the next one is pending.
   */
  lemma {:induction false} IdlePageKeepsSaving(t: Timer, n: nat)
    requires Valid(t) && t.deadline.Some?
    ensures var d := t.deadline.value; var r := EchoingAdvance(t, d + n * SaveDelay);
      && |r.saves| == |t.saves| + n + 1
      && r.saves[..|t.saves|] == t.saves
      && (forall i | 0 <= i <= n :: r.saves[|t.saves| + i] == d + i * SaveDelay)
      && r.deadline == Some(d + (n + 1) * SaveDelay)
    decreases n
  {
    var d := t.deadline.value;
    var t1 := Timer(t.armed, d, Some(d + SaveDelay), t.saves + [d]);
    assert EchoingAdvance(t, d + n * SaveDelay) == EchoingAdvance(t1, d + n * SaveDelay);
    if n > 0 {
      assert (d + SaveDelay) + (n - 1) * SaveDelay == d + n * SaveDelay;
      IdlePageKeepsSaving(t1, n - 1);
      var r := EchoingAdvance(t1, d + n * SaveDelay);
      assert r.saves[..|t1.saves|] == t1.saves;
      assert r.saves[..|t.saves|] == t1.saves[..|t.saves|];
      forall i | 0 <= i <= n ensures r.saves[|t.saves| + i] == d + i * SaveDelay {
        if i == 0 {
          assert r.saves[|t.saves|] == r.saves[..|t1.saves|][|t.saves|];
        } else {
          assert r.saves[|t1.saves| + (i - 1)] == (d + SaveDelay) + (i - 1) * SaveDelay;
        }
      }
    }
  }

  /**
   * One mutation at time 0 on an armed page and nothing afterwards: as the source behaves,
   * a save fires every `SaveDelay` milliseconds, `n + 1` of them by `(n + 1) * SaveDelay`.
   */
  lemma OneMutationSavesRepeatedly(n: nat)
    ensures var t := Step(Timer(true, 0, None, []), Mutation(0));
      |EchoingAdvance(t, (n + 1) * SaveDelay).saves| == n + 1
  {
    var t := Step(Timer(true, 0, None, []), Mutation(0));
    assert SaveDelay + n * SaveDelay == (n + 1) * SaveDelay;
    IdlePageKeepsSaving(t, n);
  }
}

=== FILE: dom.dfy ===
/**
 * The content normaliser `extractContentHTML`: it works on a copy of a DOM subtree, removes
 * the KaTeX visual layer, reveals the KaTeX MathML layer with a fixed inline style, and
 * removes interactive chrome (buttons, copy icons, DeepSeek icons).
 *
 * A DOM value is immutable here, so the "clone" is the value itself and the live page is
 * never touched. `querySelectorAll` on the clone visits descendants only, which is why each
 * pass below works on the root's children and never on the root.
 */
module Dom {
  import opened Wrappers

  /**
   * What the normaliser reads and writes of an element: its lower-case tag name, its class
   * attribute (`None` when the element has no class attribute) and its inline style text.
   */
  datatype Elem = Elem(tag: string, classes: Option<set<string>>, style: string)

  /** An element with its element children; text nodes play no part in normalisation. */
  datatype Node = Node(el: Elem, children: seq<Node>)

  const KatexHtml: string := "katex-html"
  const KatexMathml: string := "katex-mathml"
  const CopyIcon: string := "copy-icon"

  /** The style text every revealed MathML element is given. */
  const MathStyle: string := "position: static !important; clip: auto !important; width: auto !important; height: auto !important; overflow: visible !important; display: inline-block !important; border: 0 !important; padding: 0 !important; margin: 0 !important; font-size: 1.1em;"

  /** The element matches the class selector `.c`. */
  predicate HasClass(e: Elem, c: string)
  {
    e.classes.Some? && c in e.classes.value
  }

  /** Matches `.katex-html`: the visual KaTeX layer, which needs fonts the export lacks. */
  predicate IsKatexHtml(e: Elem)
  {
    HasClass(e, KatexHtml)
  }

  /** Matches `.katex-mathml`: the semantic MathML layer KaTeX keeps visually hidden. */
  predicate IsKatexMathml(e: Elem)
  {
    HasClass(e, KatexMathml)
  }

  /** Matches `button, svg.copy-icon, ds-icon`. */
  predicate IsChrome(e: Elem)
  {
    e.tag == "button" || e.tag == "ds-icon" || (e.tag == "svg" && HasClass(e, CopyIcon))
  }

  /** No element anywhere in the forest `ns` satisfies `p`. */
  predicate NoneMatch(ns: seq<Node>, p: Elem -> bool)
    decreases ns
  {
    forall i | 0 <= i < |ns| :: !p(ns[i].el) && NoneMatch(ns[i].children, p)
  }

  /**
   * `querySelectorAll(selector).forEach(el => el.remove())` on a forest: every element that
   * matches `drop` is detached together with its subtree; every other element stays, in
   * place, with its own children pruned the same way.
   */
  function Prune(ns: seq<Node>, drop: Elem -> bool): (r: seq<Node>)
    ensures |r| <= |ns|
    ensures NoneMatch(r, drop)
    ensures forall i | 0 <= i < |ns| && !drop(ns[i].el) :: Node(ns[i].el, Prune(ns[i].children, drop)) in r
    decreases ns
  {
    if ns == [] then []
    else
      var rest := Prune(ns[1..], drop);
      assert forall i | 1 <= i < |ns| :: ns[i] == ns[1..][i - 1];
      if drop(ns[0].el) then rest else [Node(ns[0].el, Prune(ns[0].children, drop))] + rest
  }

  /**
   * A removal pass only detaches: every node it leaves is a non-matching node of the input,
   * with its own children pruned, and nothing else appears in its place.
   */
  lemma {:induction false} PruneOnlyKeeps(ns: seq<Node>, drop: Elem -> bool)
    ensures forall n | n in Prune(ns, drop) ::
      exists i | 0 <= i < |ns| :: !drop(ns[i].el) && n == Node(ns[i].el, Prune(ns[i].children, drop))
    decreases ns
  {
    if ns != [] {
      PruneOnlyKeeps(ns[1..], drop);
      forall n | n in Prune(ns, drop)
        ensures exists i | 0 <= i < |ns| :: !drop(ns[i].el) && n == Node(ns[i].el, Prune(ns[i].children, drop))
      {
        if n in Prune(ns[1..], drop) {
          var k :| 0 <= k < |ns[1..]| && !drop(ns[1..][k].el)
            && n == Node(ns[1..][k].el, Prune(ns[1..][k].children, drop));
          assert ns[k + 1] == ns[1..][k];
        } else {
          assert !drop(ns[0].el) && n == Node(ns[0].el, Prune(ns[0].children, drop));
        }
      }
    }
  }

  /** The second pass on one element: `removeAttribute('class')` and `style.cssText = MathStyle`. */
  function RevealElem(e: Elem): (r: Elem)
    ensures r.tag == e.tag
    ensures IsKatexMathml(e) ==> r.classes.None? && r.style == MathStyle
    ensures !IsKatexMathml(e) ==> r == e
  {
    if IsKatexMathml(e) then Elem(e.tag, None, MathStyle) else e
  }

  /**
   * `querySelectorAll('.katex-mathml').forEach(...)` on a forest. The node list is static, so
   * a MathML element nested in another is rewritten too; nothing is added or removed.
   */
  function Reveal(ns: seq<Node>): (r: seq<Node>)
    ensures |r| == |ns|
    ensures forall i | 0 <= i < |ns| :: r[i].el == RevealElem(ns[i].el) && r[i].children == Reveal(ns[i].children)
    ensures NoneMatch(r, IsKatexMathml)
    decreases ns
  {
    if ns == [] then []
    else [Node(RevealElem(ns[0].el), Reveal(ns[0].children))] + Reveal(ns[1..])
  }

  /**
   * Reference definition of the normaliser in one walk: an element goes, with its subtree,
   * when it is a KaTeX visual layer or when, once revealed, it is chrome; every other element
   * stays in place, revealed, with its children cleaned the same way.
   */
  function Clean(ns: seq<Node>): seq<Node>
    decreases ns
  {
    if ns == [] then []
    else
      var e := ns[0].el;
      (if IsKatexHtml(e) || IsChrome(RevealElem(e)) then [] else [Node(RevealElem(e), Clean(ns[0].children))])
        + Clean(ns[1..])
  }

  /**
   * `extractContentHTML` up to serialisation: the three passes, in the source's order. The
   * result is the one-walk `Clean` of the children, so every other element survives in place.
   */
  function Normalize(root: Node): (r: Node)
    ensures r.el == root.el
    ensures r.children == Clean(root.children)
    ensures NoneMatch(r.children, IsKatexHtml)
    ensures NoneMatch(r.children, IsKatexMathml)
    ensures NoneMatch(r.children, IsChrome)
  {
    var noVisual := Prune(root.children, IsKatexHtml);
    var revealed := Reveal(noVisual);
    RevealKeepsNoKatexHtml(noVisual);
    var cleaned := Prune(revealed, IsChrome);
    PruneKeepsNoneMatch(revealed, IsChrome, IsKatexHtml);
    PruneKeepsNoneMatch(revealed, IsChrome, IsKatexMathml);
    PassesAreClean(root.children);
    Node(root.el, cleaned)
  }

  lemma PruneCons(n: Node, ns: seq<Node>, drop: Elem -> bool)
    ensures Prune([n] + ns, drop)
      == (if drop(n.el) then [] else [Node(n.el, Prune(n.children, drop))]) + Prune(ns, drop)
  {
    assert ([n] + ns)[0] == n && ([n] + ns)[1..] == ns;
  }

  lemma RevealCons(n: Node, ns: seq<Node>)
    ensures Reveal([n] + ns) == [Node(RevealElem(n.el), Reveal(n.children))] + Reveal(ns)
  {
    assert ([n] + ns)[0] == n && ([n] + ns)[1..] == ns;
  }

  /** A removal pass works sibling by sibling: survivors keep their order and their number. */
  lemma {:induction false} PruneAppend(a: seq<Node>, b: seq<Node>, drop: Elem -> bool)
    ensures Prune(a + b, drop) == Prune(a, drop) + Prune(b, drop)
    decreases a
  {
    if a == [] {
      assert a + b == b;
    } else {
      assert (a + b)[0] == a[0];
      assert (a + b)[1..] == a[1..] + b;
      PruneAppend(a[1..], b, drop);
    }
  }

  /** The three passes of `extractContentHTML` equal the one-walk reference `Clean`. */
  lemma {:induction false} PassesAreClean(ns: seq<Node>)
    ensures Prune(Reveal(Prune(ns, IsKatexHtml)), IsChrome) == Clean(ns)
    decreases ns
  {
    if ns != [] {
      var n, rest := ns[0], ns[1..];
      assert ns == [n] + rest;
      PassesAreClean(rest);
      PassesAreClean(n.children);
      PruneCons(n, rest, IsKatexHtml);
      var tl := Prune(rest, IsKatexHtml);
      if !IsKatexHtml(n.el) {
        var head := Node(n.el, Prune(n.children, IsKatexHtml));
        RevealCons(head, tl);
        var rh := Node(RevealElem(n.el), Reveal(head.children));
        PruneCons(rh, Reveal(tl), IsChrome);
      }
    }
  }

  /** Removing subtrees cannot create a match: whatever held of every element still holds. */
  lemma {:induction false} PruneKeepsNoneMatch(ns: seq<Node>, drop: Elem -> bool, p: Elem -> bool)
    requires NoneMatch(ns, p)
    ensures NoneMatch(Prune(ns, drop), p)
    decreases ns
  {
    if ns != [] {
      PruneKeepsNoneMatch(ns[1..], drop, p);
      assert NoneMatch(ns[1..], p) by {
        assert forall i | 0 <= i < |ns| - 1 :: ns[1..][i] == ns[i + 1];
      }
      PruneKeepsNoneMatch(ns[0].children, drop, p);
    }
  }

  /** Revealing only drops class attributes, so it cannot create a `.katex-html` element. */
  lemma {:induction false} RevealKeepsNoKatexHtml(ns: seq<Node>)
    requires NoneMatch(ns, IsKatexHtml)
    ensures NoneMatch(Reveal(ns), IsKatexHtml)
    decreases ns
  {
    var r := Reveal(ns);
    forall i | 0 <= i < |ns| ensures !IsKatexHtml(r[i].el) && NoneMatch(r[i].children, IsKatexHtml) {
      RevealKeepsNoKatexHtml(ns[i].children);
    }
  }

  /** When nothing matches `drop`, pruning changes nothing. */
  lemma {:induction false} PruneIdentity(ns: seq<Node>, drop: Elem -> bool)
    requires NoneMatch(ns, drop)
    ensures Prune(ns, drop) == ns
    decreases ns
  {
    if ns != [] {
      assert NoneMatch(ns[1..], drop) by {
        assert forall i | 0 <= i < |ns| - 1 :: ns[1..][i] == ns[i + 1];
      }
      PruneIdentity(ns[1..], drop);
      PruneIdentity(ns[0].children, drop);
      assert Prune(ns, drop) == [Node(ns[0].el, Prune(ns[0].children, drop))] + Prune(ns[1..], drop);
      assert ns == [ns[0]] + ns[1..];
    }
  }

  /** When no element carries `.katex-mathml`, revealing changes nothing. */
  lemma {:induction false} RevealIdentity(ns: seq<Node>)
    requires NoneMatch(ns, IsKatexMathml)
    ensures Reveal(ns) == ns
    decreases ns
  {
    var r := Reveal(ns);
    forall i | 0 <= i < |ns| ensures r[i] == ns[i] {
      RevealIdentity(ns[i].children);
    }
  }

  /** A subtree with nothing to strip or reveal comes out of the normaliser unchanged. */
  lemma CleanTreeUnchanged(root: Node)
    requires NoneMatch(root.children, IsKatexHtml)
    requires NoneMatch(root.children, IsKatexMathml)
    requires NoneMatch(root.children, IsChrome)
    ensures Normalize(root) == root
  {
    PruneIdentity(root.children, IsKatexHtml);
    RevealIdentity(root.children);
    PruneIdentity(root.children, IsChrome);
  }

  /** Normalising an already normalised subtree yields no further change. */
  lemma NormalizeIdempotent(root: Node)
    ensures Normalize(Normalize(root)) == Normalize(root)
  {
    CleanTreeUnchanged(Normalize(root));
  }

  lemma {:induction false} CleanAppend(a: seq<Node>, b: seq<Node>)
    ensures Clean(a + b) == Clean(a) + Clean(b)
    decreases a
  {
    if a == [] {
      assert a + b == b;
    } else {
      var e := a[0].el;
      var head := if IsKatexHtml(e) || IsChrome(RevealElem(e)) then [] else [Node(RevealElem(e), Clean(a[0].children))];
      assert (a + b)[0] == a[0];
      assert (a + b)[1..] == a[1..] + b;
      assert Clean(a + b) == head + Clean(a[1..] + b);
      assert Clean(a) == head + Clean(a[1..]);
      CleanAppend(a[1..], b);
    }
  }

  /**
   * A child that is neither a KaTeX layer nor chrome (an `svg` without `copy-icon`, say)
   * survives normalisation in place, with its own tag, classes and style, between what is
   * left of its earlier and of its later siblings.
   */
  lemma PlainChildSurvives(root: Node, i: nat)
    requires i < |root.children|
    requires !IsKatexHtml(root.children[i].el)
    requires !IsKatexMathml(root.children[i].el)
    requires !IsChrome(root.children[i].el)
    ensures Normalize(root).children
      == Clean(root.children[..i])
         + [Node(root.children[i].el, Clean(root.children[i].children))]
         + Clean(root.children[i + 1..])
  {
    var ns := root.children;
    assert ns == ns[..i] + ([ns[i]] + ns[i + 1..]);
    CleanAppend(ns[..i], [ns[i]] + ns[i + 1..]);
    assert ([ns[i]] + ns[i + 1..])[0] == ns[i];
    assert ([ns[i]] + ns[i + 1..])[1..] == ns[i + 1..];
  }

  /**
   * The passes run in order, so an `svg` carrying both `katex-mathml` and `copy-icon` loses
   * its class attribute before the chrome pass looks for `svg.copy-icon`, and is kept.
   */
  lemma MathmlCopyIconSurvives(root: Node)
    requires |root.children| == 1
    requires root.children[0] == Node(Elem("svg", Some({KatexMathml, CopyIcon}), ""), [])
    ensures Normalize(root).children == [Node(Elem("svg", None, MathStyle), [])]
  {
    assert !IsKatexHtml(root.children[0].el);
    var revealed := Reveal(Prune(root.children, IsKatexHtml));
    assert revealed == [Node(Elem("svg", None, MathStyle), [])];
  }
}

=== FILE: export.dfy ===
/**
 * The popup's session operations: the three file exports of `exportData`, with file name
 * and MIME type, renaming (`saveNewTitle`), deletion and lookup by id. The locale rendering
 * of the session's timestamp is given as `date`; the Blob download is not modelled.
 */
module Export {
  import opened Wrappers
  import opened Strings
  import opened Chat

  datatype Format = Json | Txt | Md

  /** The file extension, which is the format's own name. */
  function Extension(f: Format): string
  {
    match f
    case Json => "json"
    case Txt => "txt"
    case Md => "md"
  }

  /** The MIME type of the download: JSON for the json export, plain text otherwise. */
  function MimeType(f: Format): (r: string)
    ensures r == "application/json" <==> f == Json
    ensures r != "application/json" ==> r == "text/plain"
  {
    if f == Json then "application/json" else "text/plain"
  }

  /** `ChatExport_<website without its first space>_<id>.<format>`. */
  function FileName(chat: Session, f: Format): string
  {
    "ChatExport_" + ReplaceFirst(chat.website, " ", "") + "_" + chat.id + "." + Extension(f)
  }

  /** Where the first space was, and how the remaining characters shift left past it. */
  lemma FirstSpaceRemoved(website: string)
    requires Contains(website, " ")
    ensures var i := IndexOf(website, " ").value; var r := ReplaceFirst(website, " ", "");
      && website[i] == ' '
      && (forall j | 0 <= j < i :: website[j] != ' ')
      && |r| == |website| - 1
      && (forall m | 0 <= m < i :: r[m] == website[m])
      && (forall m | i <= m < |r| :: r[m] == website[m + 1])
  {
    var i := IndexOf(website, " ").value;
    assert website[i..i + 1][0] == website[i];
    forall j | 0 <= j < i ensures website[j] != ' ' {
      assert !OccursAt(website, " ", j);
      assert website[j..j + 1][0] == website[j];
    }
  }

  /** A website without the substring " " has no space character at all. */
  lemma NoSpaceOccurrence(website: string)
    requires !Contains(website, " ")
    ensures forall k | 0 <= k < |website| :: website[k] != ' '
  {
    forall k | 0 <= k < |website| ensures website[k] != ' ' {
      assert !OccursAt(website, " ", k);
      assert website[k..k + 1][0] == website[k];
    }
  }

  /**
   * The website part of the file name loses only its first space, so it is free of spaces
   * exactly when the website has at most one.
   */
  lemma FileNameWebsiteSpaces(website: string)
    ensures ' ' !in ReplaceFirst(website, " ", "") <==>
      forall j, k | 0 <= j < k < |website| :: !(website[j] == ' ' && website[k] == ' ')
  {
    var r := ReplaceFirst(website, " ", "");
    if Contains(website, " ") {
      FirstSpaceRemoved(website);
      var i := IndexOf(website, " ").value;
      if ' ' in r {
        var m :| 0 <= m < |r| && r[m] == ' ';
        assert m >= i;
        assert website[i] == ' ' && website[m + 1] == ' ';
      } else {
        forall j, k | 0 <= j < k < |website| ensures !(website[j] == ' ' && website[k] == ' ') {
          if k > i {
            assert r[k - 1] == website[k];
          }
        }
      }
    } else {
      NoSpaceOccurrence(website);
    }
  }

  /** A message of the JSON export: only role and text, the HTML payload is left out. */
  datatype PlainMessage = PlainMessage(role: string, text: string)

  /** The JSON export at record level: the session's fields with plain messages. */
  datatype JsonSession = JsonSession(id: string, website: string, url: string, title: string,
                                     messages: seq<PlainMessage>, timestamp: string)

  /** `{ ...chat, messages: chat.messages.map(m => ({ role: m.role, text: m.text })) }`. */
  function ToJson(chat: Session): (j: JsonSession)
    ensures j.id == chat.id && j.website == chat.website && j.url == chat.url
    ensures j.title == chat.title && j.timestamp == chat.timestamp
    ensures |j.messages| == |chat.messages|
    ensures forall k | 0 <= k < |chat.messages| ::
      j.messages[k].role == chat.messages[k].role && j.messages[k].text == chat.messages[k].text
  {
    JsonSession(chat.id, chat.website, chat.url, chat.title,
                seq(|chat.messages|, k requires 0 <= k < |chat.messages| =>
                  PlainMessage(chat.messages[k].role, chat.messages[k].text)),
                chat.timestamp)
  }

  /** Reading a JSON export back as a session: messages come back without HTML. */
  function FromJson(j: JsonSession): Session
  {
    Session(j.id, j.website, j.url, j.title,
            seq(|j.messages|, k requires 0 <= k < |j.messages| =>
              Message(j.messages[k].role, j.messages[k].text, None)),
            j.timestamp)
  }

  /** The message with its HTML payload dropped. */
  function WithoutHtml(m: Message): Message
  {
    m.(html := None)
  }

  /**
   * Re-reading a JSON export reproduces the export, and it reproduces the session up to the
   * HTML payloads, which the export deliberately drops.
   */
  lemma JsonRoundTrip(chat: Session, j: JsonSession)
    ensures ToJson(FromJson(j)) == j
    ensures var back := FromJson(ToJson(chat));
      && back.(messages := chat.messages) == chat
      && |back.messages| == |chat.messages|
      && forall k | 0 <= k < |chat.messages| :: back.messages[k] == WithoutHtml(chat.messages[k])
  {
  }

  /** The concatenation of one block per message, in message order. */
  function Blocks(ms: seq<Message>, block: Message -> string): string
  {
    if ms == [] then "" else block(ms[0]) + Blocks(ms[1..], block)
  }

  lemma {:induction false} BlocksAppend(a: seq<Message>, b: seq<Message>, block: Message -> string)
    ensures Blocks(a + b, block) == Blocks(a, block) + Blocks(b, block)
  {
    if a == [] {
      assert a + b == b;
    } else {
      assert (a + b)[0] == a[0];
      assert (a + b)[1..] == a[1..] + b;
      BlocksAppend(a[1..], b, block);
    }
  }

  /**
   * The blocks of a message list are, in order, the blocks of the messages before `k`, the
   * block of message `k`, and the blocks of the messages after it.
   */
  lemma {:induction false} BlocksAt(ms: seq<Message>, k: nat, block: Message -> string)
    requires k < |ms|
    ensures Blocks(ms, block) == Blocks(ms[..k], block) + block(ms[k]) + Blocks(ms[k + 1..], block)
    decreases k
  {
    if k == 0 {
      assert ms[..0] == [];
    } else {
      var tail := ms[1..];
      BlocksAt(tail, k - 1, block);
      assert tail[..k - 1] == ms[..k][1..];
      assert tail[k - 1] == ms[k];
      assert tail[k..] == ms[k + 1..];
      assert ms[..k][0] == ms[0];
    }
  }

  const Separator: string := "=================================================="

  function TxtHeader(chat: Session, date: string): string
  {
    "Title: " + chat.title + "\r\nWebsite: " + chat.website + "\r\nDate: " + date + "\r\n"
      + Separator + "\r\n\r\n"
  }

  /** `[ROLE]\r\n<text>\r\n\r\n`, the role upper-cased. */
  function TxtBlock(m: Message): string
  {
    "[" + ToUpper(m.role) + "]\r\n" + m.text + "\r\n\r\n"
  }

  /** The TXT export. */
  function TxtExport(chat: Session, date: string): string
  {
    TxtHeader(chat, date) + Blocks(chat.messages, TxtBlock)
  }

  /** The section label of the Markdown export: User exactly for the role `user`. */
  function MdRoleLabel(role: string): (r: string)
    ensures r == "\U{1F9D1} **User**" <==> role == "user"
    ensures role != "user" ==> r == "\U{1F916} **Assistant**"
  {
    if role == "user" then "\U{1F9D1} **User**" else "\U{1F916} **Assistant**"
  }

  function MdHeader(chat: Session, date: string): string
  {
    "# " + chat.title + "\n\n**Source:** " + chat.website + "\n**Date:** " + date + "\n\n---\n\n"
  }

  function MdBlock(m: Message): string
  {
    "### " + MdRoleLabel(m.role) + "\n\n" + m.text + "\n\n"
  }

  /** The Markdown export. */
  function MdExport(chat: Session, date: string): string
  {
    MdHeader(chat, date) + Blocks(chat.messages, MdBlock)
  }

  /**
   * The TXT export is its Title/Website/Date header, with CRLF line ends and a separator line,
   * followed by the messages' blocks in order: the block of message `k` sits right after the
   * header and the blocks of the messages before it.
   */
  lemma TxtLayout(chat: Session, date: string, k: nat)
    requires k < |chat.messages|
    ensures TxtExport(chat, date)
      == TxtHeader(chat, date) + Blocks(chat.messages[..k], TxtBlock)
         + ("[" + ToUpper(chat.messages[k].role) + "]\r\n" + chat.messages[k].text + "\r\n\r\n")
         + Blocks(chat.messages[k + 1..], TxtBlock)
  {
    var ms := chat.messages;
    var pre, post := Blocks(ms[..k], TxtBlock), Blocks(ms[k + 1..], TxtBlock);
    BlocksAt(ms, k, TxtBlock);
    assert TxtExport(chat, date) == TxtHeader(chat, date) + (pre + TxtBlock(ms[k]) + post);
  }

  /** The TXT export opens with its `Title: ` line. */
  lemma TxtStartsWithTitle(chat: Session, date: string)
    ensures TxtExport(chat, date)[..7 + |chat.title|] == "Title: " + chat.title
  {
    var head := "Title: " + chat.title;
    var rest := "\r\nWebsite: " + chat.website + "\r\nDate: " + date + "\r\n" + Separator + "\r\n\r\n"
      + Blocks(chat.messages, TxtBlock);
    assert TxtExport(chat, date) == head + rest;
    assert (head + rest)[..|head|] == head;
  }

  /**
   * The Markdown export starts with `# <title>` and has one `### ` section per message, in
   * order, labelled User exactly when the role is `user`.
   */
  lemma MdLayout(chat: Session, date: string, k: nat)
    requires k < |chat.messages|
    ensures MdExport(chat, date)
      == MdHeader(chat, date) + Blocks(chat.messages[..k], MdBlock)
         + ("### " + MdRoleLabel(chat.messages[k].role) + "\n\n" + chat.messages[k].text + "\n\n")
         + Blocks(chat.messages[k + 1..], MdBlock)
  {
    BlocksAt(chat.messages, k, MdBlock);
  }

  /** The Markdown export opens with the title as a level-one heading. */
  lemma MdStartsWithTitle(chat: Session, date: string)
    ensures MdExport(chat, date)[..2 + |chat.title|] == "# " + chat.title
  {
    var head := "# " + chat.title;
    var rest := "\n\n**Source:** " + chat.website + "\n**Date:** " + date + "\n\n---\n\n"
      + Blocks(chat.messages, MdBlock);
    assert MdExport(chat, date) == head + rest;
    assert (head + rest)[..|head|] == head;
  }

  /** The content of a download: a JSON document (at record level) or text. */
  datatype Content = JsonContent(doc: JsonSession) | TextContent(text: string)

  datatype Download = Download(fileName: string, mimeType: string, content: Content)

  /**
   * `exportData(chat, format)`: nothing happens for a missing session; otherwise the file
   * carries the format's content, the format's MIME type and the export file name.
   */
  function ExportData(chat: Option<Session>, f: Format, date: string): (r: Option<Download>)
    ensures r.None? <==> chat.None?
    ensures r.Some? ==> r.value.fileName == FileName(chat.value, f) && r.value.mimeType == MimeType(f)
    ensures r.Some? && f == Json ==> r.value.content == JsonContent(ToJson(chat.value))
    ensures r.Some? && f == Txt ==> r.value.content == TextContent(TxtExport(chat.value, date))
    ensures r.Some? && f == Md ==> r.value.content == TextContent(MdExport(chat.value, date))
  {
    match chat
    case None => None
    case Some(c) =>
      var content := match f
        case Json => JsonContent(ToJson(c))
        case Txt => TextContent(TxtExport(c, date))
        case Md => TextContent(MdExport(c, date));
      Some(Download(FileName(c, f), MimeType(f), content))
  }

  /** The title `saveNewTitle` stores: the trimmed input, or the current title when that is blank. */
  function NewTitle(input: string, current: string): (r: string)
    ensures IsBlank(input) ==> r == current
    ensures !IsBlank(input) ==> r == Trim(input) && r != ""
  {
    var t := Trim(input);
    if t == "" then current else t
  }

  /**
   * `saveNewTitle`: the first session with the id gets the new title; every other session,
   * and every other field, is unchanged; an unknown id leaves the list as it was.
   */
  function Rename(chats: seq<Session>, id: string, input: string, current: string): (r: seq<Session>)
    ensures |r| == |chats|
    ensures FindIndex(chats, id).None? ==> r == chats
    ensures FindIndex(chats, id).Some? ==>
      var i := FindIndex(chats, id).value;
      && r[i] == chats[i].(title := NewTitle(input, current))
      && forall j | 0 <= j < |chats| && j != i :: r[j] == chats[j]
  {
    match FindIndex(chats, id)
    case None => chats
    case Some(i) => chats[i := chats[i].(title := NewTitle(input, current))]
  }

  /** After a rename, looking the id up finds the renamed session, ids and order unchanged. */
  lemma RenameThenFind(chats: seq<Session>, id: string, input: string, current: string)
    requires Find(chats, id).Some?
    ensures Find(Rename(chats, id, input, current), id) == Some(Find(chats, id).value.(title := NewTitle(input, current)))
    ensures forall j | 0 <= j < |chats| :: Rename(chats, id, input, current)[j].id == chats[j].id
  {
    var r := Rename(chats, id, input, current);
    var i := FindIndex(chats, id).value;
    assert forall j | 0 <= j < |chats| :: r[j].id == chats[j].id;
    assert FindIndex(r, id) == Some(i) by {
      FindIndexAgrees(chats, r, id);
    }
  }

  /** Two lists with the same ids in the same order agree on `FindIndex`. */
  lemma {:induction false} FindIndexAgrees(a: seq<Session>, b: seq<Session>, id: string)
    requires |a| == |b| && forall j | 0 <= j < |a| :: a[j].id == b[j].id
    ensures FindIndex(a, id) == FindIndex(b, id)
  {
    if a != [] {
      FindIndexAgrees(a[1..], b[1..], id);
    }
  }

  /** The delete button's `chats.filter(c => c.id !== id)`. */
  function Delete(chats: seq<Session>, id: string): (r: seq<Session>)
    ensures |r| <= |chats|
    ensures forall k | 0 <= k < |r| :: r[k].id != id && r[k] in chats
    ensures forall k | 0 <= k < |chats| && chats[k].id != id :: chats[k] in r
  {
    if chats == [] then []
    else (if chats[0].id == id then [] else [chats[0]]) + Delete(chats[1..], id)
  }

  /** Deletion keeps the survivors in their original order: it works piecewise on a split list. */
  lemma {:induction false} DeleteAppend(a: seq<Session>, b: seq<Session>, id: string)
    ensures Delete(a + b, id) == Delete(a, id) + Delete(b, id)
  {
    if a == [] {
      assert a + b == b;
    } else {
      assert (a + b)[0] == a[0];
      assert (a + b)[1..] == a[1..] + b;
      DeleteAppend(a[1..], b, id);
    }
  }

  /** Deleting an id that is absent changes nothing, and deleting twice is deleting once. */
  lemma {:induction false} DeleteAbsentIsIdentity(chats: seq<Session>, id: string)
    requires forall k | 0 <= k < |chats| :: chats[k].id != id
    ensures Delete(chats, id) == chats
  {
    if chats != [] {
      DeleteAbsentIsIdentity(chats[1..], id);
    }
  }

  lemma DeleteIdempotent(chats: seq<Session>, id: string)
    ensures Delete(Delete(chats, id), id) == Delete(chats, id)
    ensures Find(Delete(chats, id), id).None?
  {
    DeleteAbsentIsIdentity(Delete(chats, id), id);
  }
}

=== FILE: html_escape.dfy ===
/**
 * The `escapeHtml` helper that both the popup and the print view define, the
 * newline-to-`<br>` rewrite of the print fallback, and the decoders that undo them.
 */
module HtmlEscape {
  import opened Wrappers

  /** `s.replace(/c/g, rep)`: every occurrence of the character `c` becomes `rep`. */
  function ReplaceAllChar(s: string, c: char, rep: string): (r: string)
    ensures c !in rep ==> c !in r
    ensures c !in s ==> r == s
  {
    if s == [] then [] else (if s[0] == c then rep else [s[0]]) + ReplaceAllChar(s[1..], c, rep)
  }

  lemma {:induction false} ReplaceAllCharAppend(a: string, b: string, c: char, rep: string)
    ensures ReplaceAllChar(a + b, c, rep) == ReplaceAllChar(a, c, rep) + ReplaceAllChar(b, c, rep)
  {
    if a == [] {
      assert a + b == b;
    } else {
      assert (a + b)[0] == a[0];
      assert (a + b)[1..] == a[1..] + b;
      ReplaceAllCharAppend(a[1..], b, c, rep);
    }
  }

  /**
   * Reference definition: `s.split(c)`, the pieces of `s` between the occurrences of `c`
   * (one more piece than there are occurrences).
   */
  function Split(s: string, c: char): (ps: seq<string>)
    ensures |ps| >= 1
    ensures forall k | 0 <= k < |ps| :: c !in ps[k]
  {
    if s == [] then [[]]
    else
      var rest := Split(s[1..], c);
      if s[0] == c then [[]] + rest else [[s[0]] + rest[0]] + rest[1..]
  }

  /** `pieces.join(sep)`. */
  function Join(ps: seq<string>, sep: string): string
  {
    if ps == [] then [] else if |ps| == 1 then ps[0] else ps[0] + sep + Join(ps[1..], sep)
  }

  /**
   * A global replacement is `s.split(c).join(rep)`: the text between the occurrences of `c`
   * is kept as is and in order, and only the occurrences themselves become `rep`.
   */
  lemma {:induction false} ReplaceAllIsSplitJoin(s: string, c: char, rep: string)
    ensures ReplaceAllChar(s, c, rep) == Join(Split(s, c), rep)
  {
    if s != [] {
      var ps := Split(s[1..], c);
      ReplaceAllIsSplitJoin(s[1..], c, rep);
      assert ReplaceAllChar(s, c, rep) == (if s[0] == c then rep else [s[0]]) + Join(ps, rep);
      if s[0] == c {
        var qs := [[]] + ps;
        assert qs[0] == [] && qs[1..] == ps;
        assert Join(qs, rep) == [] + rep + Join(ps, rep);
      } else {
        var qs := [[s[0]] + ps[0]] + ps[1..];
        assert qs[0] == [s[0]] + ps[0] && qs[1..] == ps[1..];
        if |ps| == 1 {
          assert Join(qs, rep) == [s[0]] + ps[0];
        } else {
          assert Join(qs, rep) == [s[0]] + ps[0] + rep + Join(ps[1..], rep);
          assert Join(ps, rep) == ps[0] + rep + Join(ps[1..], rep);
        }
      }
    }
  }

  /** Joining the pieces with the character itself gives the text back: nothing else is lost. */
  lemma {:induction false} SplitJoinRestores(s: string, c: char)
    ensures Join(Split(s, c), [c]) == s
  {
    ReplaceAllIsSplitJoin(s, c, [c]);
    ReplaceByItself(s, c);
  }

  lemma {:induction false} ReplaceByItself(s: string, c: char)
    ensures ReplaceAllChar(s, c, [c]) == s
  {
    if s != [] {
      ReplaceByItself(s[1..], c);
      assert s == [s[0]] + s[1..];
    }
  }

  /** The three global replacements, ampersand first. */
  function Escape(s: string): string
  {
    ReplaceAllChar(ReplaceAllChar(ReplaceAllChar(s, '&', "&amp;"), '<', "&lt;"), '>', "&gt;")
  }

  /** `escapeHtml(unsafe)`: a missing value (`null`/`undefined`) escapes to the empty string. */
  function EscapeHtml(unsafe: Option<string>): (r: string)
    ensures unsafe.None? ==> r == ""
    ensures '<' !in r && '>' !in r
  {
    var s := unsafe.GetOr("");
    EscapeIsPerCharacter(s);
    EscapeEachHasNoAngles(s);
    Escape(s)
  }

  /** The entity a single character is written as. */
  function EscapeChar(c: char): string
  {
    if c == '&' then "&amp;" else if c == '<' then "&lt;" else if c == '>' then "&gt;" else [c]
  }

  /** Reference definition: each character escaped on its own, results concatenated. */
  function EscapeEach(s: string): string
  {
    if s == [] then [] else EscapeChar(s[0]) + EscapeEach(s[1..])
  }

  /** Decoding of the three entities `escapeHtml` produces (the partner of escaping). */
  function Unescape(s: string): string
  {
    if s == [] then []
    else if |s| >= 5 && s[..5] == "&amp;" then "&" + Unescape(s[5..])
    else if |s| >= 4 && s[..4] == "&lt;" then "<" + Unescape(s[4..])
    else if |s| >= 4 && s[..4] == "&gt;" then ">" + Unescape(s[4..])
    else [s[0]] + Unescape(s[1..])
  }

  /** The three replacements distribute over concatenation. */
  lemma EscapeAppend(a: string, b: string)
    ensures Escape(a + b) == Escape(a) + Escape(b)
  {
    ReplaceAllCharAppend(a, b, '&', "&amp;");
    var a1, b1 := ReplaceAllChar(a, '&', "&amp;"), ReplaceAllChar(b, '&', "&amp;");
    ReplaceAllCharAppend(a1, b1, '<', "&lt;");
    ReplaceAllCharAppend(ReplaceAllChar(a1, '<', "&lt;"), ReplaceAllChar(b1, '<', "&lt;"), '>', "&gt;");
  }

  /** On one character the three replacements give that character's entity. */
  lemma EscapeOne(c: char)
    ensures Escape([c]) == EscapeChar(c)
  {
    var a1 := ReplaceAllChar([c], '&', "&amp;");
    assert [c][1..] == [];
    if c == '&' {
      assert a1 == "&amp;";
      assert ReplaceAllChar(a1, '<', "&lt;") == a1;
    } else if c == '<' {
      assert a1 == [c];
      assert ReplaceAllChar(a1, '<', "&lt;") == "&lt;";
    } else if c == '>' {
      assert a1 == [c];
      assert ReplaceAllChar(a1, '<', "&lt;") == [c];
      assert ReplaceAllChar([c], '>', "&gt;") == "&gt;";
    } else {
      assert a1 == [c];
      assert ReplaceAllChar(a1, '<', "&lt;") == [c];
    }
  }

  /**
   * The sequential global replacements equal escaping each character on its own; this
   * holds because `&` is replaced before the entities that introduce new `&`s.
   */
  lemma {:induction false} EscapeIsPerCharacter(s: string)
    ensures Escape(s) == EscapeEach(s)
  {
    if s != [] {
      assert s == [s[0]] + s[1..];
      EscapeAppend([s[0]], s[1..]);
      EscapeOne(s[0]);
      EscapeIsPerCharacter(s[1..]);
    }
  }

  lemma {:induction false} EscapeEachHasNoAngles(s: string)
    ensures '<' !in EscapeEach(s) && '>' !in EscapeEach(s)
  {
    if s != [] {
      EscapeEachHasNoAngles(s[1..]);
    }
  }

  /** Decoding the entity of one character gives the character back, whatever follows. */
  lemma UnescapeOne(c: char, rest: string)
    ensures Unescape(EscapeChar(c) + rest) == [c] + Unescape(rest)
  {
    var e := EscapeChar(c) + rest;
    if c == '&' {
      assert e[..5] == "&amp;" && e[5..] == rest;
    } else if c == '<' {
      assert e[..4] == "&lt;" && e[4..] == rest;
      assert |e| >= 5 ==> e[..5][1] == 'l';
    } else if c == '>' {
      assert e[..4] == "&gt;" && e[4..] == rest;
      assert |e| >= 5 ==> e[..5][1] == 'g';
    } else {
      assert e[0] == c && e[1..] == rest;
      assert |e| >= 4 ==> e[..4][0] == c;
      assert |e| >= 5 ==> e[..5][0] == c;
    }
  }

  /** Unescaping undoes escaping, so no text is lost in the export markup. */
  lemma {:induction false} UnescapeEscapeEach(s: string)
    ensures Unescape(EscapeEach(s)) == s
  {
    if s != [] {
      assert EscapeEach(s) == EscapeChar(s[0]) + EscapeEach(s[1..]);
      UnescapeOne(s[0], EscapeEach(s[1..]));
      UnescapeEscapeEach(s[1..]);
      assert Unescape(EscapeEach(s)) == [s[0]] + s[1..];
      assert s == [s[0]] + s[1..];
    }
  }

  /** `escapeHtml` is reversible and its output holds no angle brackets. */
  lemma EscapeRoundTrip(s: string)
    ensures Unescape(EscapeHtml(Some(s))) == s
    ensures '<' !in EscapeHtml(Some(s)) && '>' !in EscapeHtml(Some(s))
  {
    EscapeIsPerCharacter(s);
    UnescapeEscapeEach(s);
  }

  /** `s.replace(/\n/g, '<br>')`. */
  function NewlinesToBreaks(s: string): (r: string)
    ensures '\n' !in r
  {
    ReplaceAllChar(s, '\n', "<br>")
  }

  /** Turns every `<br>` back into a newline (the partner of `NewlinesToBreaks`). */
  function BreaksToNewlines(s: string): string
  {
    if s == [] then []
    else if |s| >= 4 && s[..4] == "<br>" then "\n" + BreaksToNewlines(s[4..])
    else [s[0]] + BreaksToNewlines(s[1..])
  }

  /** Every `<` in `s` opens a `<br>` tag. */
  ghost predicate AnglesOnlyInBreaks(s: string)
  {
    forall k | 0 <= k < |s| && s[k] == '<' :: k + 4 <= |s| && s[k..k + 4] == "<br>"
  }

  lemma AnglesOnlyInBreaksAppend(a: string, b: string)
    requires AnglesOnlyInBreaks(a) && AnglesOnlyInBreaks(b)
    ensures AnglesOnlyInBreaks(a + b)
  {
    var s := a + b;
    forall k | 0 <= k < |s| && s[k] == '<' ensures k + 4 <= |s| && s[k..k + 4] == "<br>" {
      if k < |a| {
        assert a[k] == '<';
        assert s[k..k + 4] == a[k..k + 4];
      } else {
        assert b[k - |a|] == '<';
        assert s[k..k + 4] == b[k - |a|..k - |a| + 4];
      }
    }
  }

  /** On text without `<`, newlines become `<br>` tags and those are the only `<` of the result. */
  lemma {:induction false} BreaksAreTheOnlyAngles(s: string)
    requires '<' !in s
    ensures AnglesOnlyInBreaks(NewlinesToBreaks(s))
  {
    if s != [] {
      assert s == [s[0]] + s[1..];
      ReplaceAllCharAppend([s[0]], s[1..], '\n', "<br>");
      BreaksAreTheOnlyAngles(s[1..]);
      var head := ReplaceAllChar([s[0]], '\n', "<br>");
      assert AnglesOnlyInBreaks(head) by {
        if s[0] == '\n' {
          assert head == "<br>";
        } else {
          assert head == [s[0]];
        }
      }
      AnglesOnlyInBreaksAppend(head, NewlinesToBreaks(s[1..]));
    }
  }

  /** On text without `<`, turning `<br>` back into newlines recovers the text. */
  lemma {:induction false} BreaksRoundTrip(s: string)
    requires '<' !in s
    ensures BreaksToNewlines(NewlinesToBreaks(s)) == s
  {
    if s != [] {
      var r := NewlinesToBreaks(s);
      var rest := NewlinesToBreaks(s[1..]);
      BreaksRoundTrip(s[1..]);
      if s[0] == '\n' {
        assert r == "<br>" + rest;
        assert r[..4] == "<br>" && r[4..] == rest;
      } else {
        assert r == [s[0]] + rest;
        assert r[1..] == rest;
      }
      assert s == [s[0]] + s[1..];
    }
  }
}

=== FILE: lifecycle.dfy ===
/**
 * How the pieces meet: a capture on a supported page is stored by the background worker
 * under a fresh id, and the print view for that id renders it.
 */
module Lifecycle {
  import opened Wrappers
  import opened Chat
  import Dom
  import Adapters
  import Capture
  import Background
  import PrintView

  /**
   * A capture that sends stores a session with the adapter's name, the page address, the
   * derived title (never the background's default, since a derived title is never empty) and
   * the extracted messages; the print view for the returned id shows one block per message,
   * in order, with the captured roles.
   */
  lemma CaptureStoreAndPrint(site: Adapters.Site, cands: seq<Adapters.Candidate>, docTitle: string,
                             href: string, serialize: Dom.Node -> string,
                             st: Background.Store, clock: Background.Clock, date: string)
    requires Capture.SaveCurrentChat(site, cands, docTitle, href, serialize).Send?
    ensures var req := Capture.SaveCurrentChat(site, cands, docTitle, href, serialize).request;
      var h := Background.HandleMessage(req, st, clock);
      var stored := h.store.chats.value[0];
      var messages := Adapters.Extract(site, cands, serialize);
      && stored.website == Adapters.Name(site)
      && stored.url == href
      && stored.title == Capture.Title(docTitle)
      && stored.messages == messages
      && var v := PrintView.Render(Some(h.response.value.id), h.store.chats, date);
      && PrintView.TriggersPrint(v)
      && v.pageTitle == Capture.Title(docTitle) + " - PDF Export"
      && |v.blocks| == |messages|
      && forall k | 0 <= k < |messages| :: v.blocks[k].role == messages[k].role
  {
    var req := Capture.SaveCurrentChat(site, cands, docTitle, href, serialize).request;
    Background.SavePrepends(req, st, clock);
  }
}

=== FILE: print_view.dfy ===
/**
 * The printable view (`print.html?id=...`): the id check, the lookup in the stored sessions,
 * and the per-message blocks, which prefer the stored HTML and fall back to escaped text with
 * line breaks. The 600 ms settle delay and `window.print` itself are reduced to whether
 * printing is triggered.
 */
module PrintView {
  import opened Wrappers
  import opened Chat
  import HtmlEscape

  const NoIdText: string := "No chat ID provided."
  const NotFoundText: string := "Chat not found in local storage."

  /** One rendered message: its role (used in the class names), its label and its inner HTML. */
  datatype Block = Block(role: string, roleLabel: string, content: string)

  /**
   * What the page shows: only a fixed message, or the document with its title, heading,
   * metadata line and message blocks.
   */
  datatype View =
    | Notice(text: string)
    | Document(pageTitle: string, heading: string, meta: string, blocks: seq<Block>)

  /** The print dialog is scheduled only once a document has been rendered. */
  predicate TriggersPrint(v: View)
  {
    v.Document?
  }

  /** The role label: User exactly for the role `user`. */
  function Label(role: string): (r: string)
    ensures r == "\U{1F9D1} User" <==> role == "user"
    ensures role != "user" ==> r == "\U{1F916} Assistant"
  {
    if role == "user" then "\U{1F9D1} User" else "\U{1F916} Assistant"
  }

  /** The fallback for sessions without HTML: escaped text, each newline turned into `<br>`. */
  function TextFallback(text: string): (r: string)
    ensures '\n' !in r
  {
    HtmlEscape.NewlinesToBreaks(HtmlEscape.EscapeHtml(Some(text)))
  }

  /** `msg.html || escapeHtml(msg.text).replace(/\n/g, '<br>')`: the HTML when it is a non-empty string. */
  function Content(m: Message): (r: string)
    ensures m.html.Some? && m.html.value != "" ==> r == m.html.value
    ensures m.html.None? || m.html.value == "" ==> r == TextFallback(m.text)
  {
    if m.html.Some? && m.html.value != "" then m.html.value else TextFallback(m.text)
  }

  /**
   * In the fallback every `<` opens a `<br>`, and undoing the `<br>`s and the escaping gives
   * back the message text exactly.
   */
  lemma FallbackRecoversText(text: string)
    ensures HtmlEscape.AnglesOnlyInBreaks(TextFallback(text))
    ensures HtmlEscape.Unescape(HtmlEscape.BreaksToNewlines(TextFallback(text))) == text
  {
    var escaped := HtmlEscape.EscapeHtml(Some(text));
    HtmlEscape.BreaksAreTheOnlyAngles(escaped);
    HtmlEscape.BreaksRoundTrip(escaped);
    HtmlEscape.EscapeRoundTrip(text);
  }

  /** One block per message, in order. */
  function RenderBlocks(ms: seq<Message>): (r: seq<Block>)
    ensures |r| == |ms|
    ensures forall k | 0 <= k < |ms| :: r[k] == Block(ms[k].role, Label(ms[k].role), Content(ms[k]))
  {
    seq(|ms|, k requires 0 <= k < |ms| => Block(ms[k].role, Label(ms[k].role), Content(ms[k])))
  }

  /**
   * The page for query parameter `id` and the stored `chats` (absent on a fresh profile);
   * `date` is the locale rendering of the session's timestamp.
   */
  function Render(id: Option<string>, chats: Option<seq<Session>>, date: string): (v: View)
    ensures id.None? || id.value == "" ==> v == Notice(NoIdText)
    ensures id.Some? && id.value != "" && Find(chats.GetOr([]), id.value).None? ==> v == Notice(NotFoundText)
    ensures id.Some? && id.value != "" && Find(chats.GetOr([]), id.value).Some? ==> v.Document?
    ensures v.Document? ==>
      && id.Some? && Find(chats.GetOr([]), id.value).Some?
      && var chat := Find(chats.GetOr([]), id.value).value;
      && v.pageTitle == chat.title + " - PDF Export"
      && v.heading == chat.title
      && v.meta == "Source: " + chat.website + "   |   Date: " + date
      && v.blocks == RenderBlocks(chat.messages)
  {
    if id.None? || id.value == "" then Notice(NoIdText)
    else
      match Find(chats.GetOr([]), id.value)
      case None => Notice(NotFoundText)
      case Some(chat) =>
        Document(chat.title + " - PDF Export", chat.title,
                 "Source: " + chat.website + "   |   Date: " + date, RenderBlocks(chat.messages))
  }

  /**
   * Printing is triggered exactly when the id is present and names a stored session, and then
   * the view has one block per message of the first session with that id.
   */
  lemma PrintsOnlyFoundSessions(id: Option<string>, chats: Option<seq<Session>>, date: string)
    ensures TriggersPrint(Render(id, chats, date))
      <==> id.Some? && id.value != "" && exists k :: 0 <= k < |chats.GetOr([])| && chats.GetOr([])[k].id == id.value
    ensures TriggersPrint(Render(id, chats, date)) ==>
      |Render(id, chats, date).blocks| == |Find(chats.GetOr([]), id.value).value.messages|
  {
  }
}

=== FILE: strings.dfy ===
/**
 * The JavaScript string primitives the extension relies on, over `string` (= `seq<char>`):
 * `trim`, `includes`, `indexOf`, `replace` with a string pattern (first occurrence only),
 * `toUpperCase` (ASCII letters only) and `Number.prototype.toString` for natural numbers.
 */
module Strings {
  import opened Wrappers

  /** The characters `String.prototype.trim` strips: WhiteSpace and LineTerminator of ECMAScript. */
  predicate IsWhitespace(c: char)
  {
    || '\t' <= c <= '\r'
    || c == ' ' || c == '\U{A0}' || c == '\U{1680}'
    || '\U{2000}' <= c <= '\U{200A}'
    || c == '\U{2028}' || c == '\U{2029}' || c == '\U{202F}' || c == '\U{205F}'
    || c == '\U{3000}' || c == '\U{FEFF}'
  }

  /** A string that `trim` turns into the empty string (JavaScript treats that result as falsy). */
  predicate IsBlank(s: string)
  {
    forall k | 0 <= k < |s| :: IsWhitespace(s[k])
  }

  /** The number of whitespace characters `s` starts with, counting from index `from`. */
  function LeadingEnd(s: string, from: nat): (n: nat)
    requires from <= |s|
    ensures from <= n <= |s|
    ensures forall k | from <= k < n :: IsWhitespace(s[k])
    ensures n < |s| ==> !IsWhitespace(s[n])
    decreases |s| - from
  {
    if from < |s| && IsWhitespace(s[from]) then LeadingEnd(s, from + 1) else from
  }

  /** The index where the trailing whitespace of `s[..upto]` begins. */
  function TrailingStart(s: string, upto: nat): (n: nat)
    requires upto <= |s|
    ensures n <= upto
    ensures forall k | n <= k < upto :: IsWhitespace(s[k])
    ensures n > 0 ==> !IsWhitespace(s[n - 1])
  {
    if upto > 0 && IsWhitespace(s[upto - 1]) then TrailingStart(s, upto - 1) else upto
  }

  /** `String.prototype.trim`: the part of `s` between its leading and trailing whitespace. */
  function Trim(s: string): (r: string)
    ensures |r| <= |s|
    ensures r == [] || (!IsWhitespace(r[0]) && !IsWhitespace(r[|r| - 1]))
    ensures r == [] <==> IsBlank(s)
    ensures exists a, b | 0 <= a <= b <= |s| :: r == s[a..b] && IsBlank(s[..a]) && IsBlank(s[b..])
  {
    var start := LeadingEnd(s, 0);
    if start == |s| then
      assert s[|s|..|s|] == [] && IsBlank(s[..|s|]) && IsBlank(s[|s|..]);
      []
    else
      var end := TrailingStart(s, |s|);
      assert start < end by {
        assert !IsWhitespace(s[start]);
      }
      assert IsBlank(s[..start]) && IsBlank(s[end..]);
      s[start..end]
  }

  /** Trimming a trimmed string changes nothing. */
  lemma TrimIdempotent(s: string)
    ensures Trim(Trim(s)) == Trim(s)
  {
    var t := Trim(s);
    if t != [] {
      assert LeadingEnd(t, 0) == 0;
      assert TrailingStart(t, |t|) == |t|;
      assert t[0..|t|] == t;
    }
  }

  /** `pat` occurs in `s` starting at index `i`. */
  predicate OccursAt(s: string, pat: string, i: int)
  {
    0 <= i && i + |pat| <= |s| && s[i..i + |pat|] == pat
  }

  /** The first index at or after `from` where `pat` occurs in `s`. */
  function IndexOfFrom(s: string, pat: string, from: nat): (r: Option<nat>)
    ensures r.Some? ==> from <= r.value && OccursAt(s, pat, r.value)
    ensures r.Some? ==> forall j | from <= j < r.value :: !OccursAt(s, pat, j)
    ensures r.None? ==> forall j | from <= j :: !OccursAt(s, pat, j)
    decreases |s| - from
  {
    if from + |pat| > |s| then None
    else if OccursAt(s, pat, from) then Some(from)
    else IndexOfFrom(s, pat, from + 1)
  }

  /** `String.prototype.indexOf`, with `None` for -1. */
  function IndexOf(s: string, pat: string): (r: Option<nat>)
    ensures r.Some? ==> OccursAt(s, pat, r.value) && forall j | 0 <= j < r.value :: !OccursAt(s, pat, j)
    ensures r.None? <==> forall j :: !OccursAt(s, pat, j)
  {
    IndexOfFrom(s, pat, 0)
  }

  /** `String.prototype.includes`. */
  predicate Contains(s: string, pat: string)
  {
    IndexOf(s, pat).Some?
  }

  /**
   * `s.replace(pat, rep)` with a string pattern: only the first occurrence of `pat` is
   * replaced, and `s` is returned as is when `pat` does not occur.
   */
  function ReplaceFirst(s: string, pat: string, rep: string): (r: string)
    ensures !Contains(s, pat) ==> r == s
    ensures Contains(s, pat) ==>
      var i := IndexOf(s, pat).value;
      && |r| == |s| - |pat| + |rep|
      && r[..i] == s[..i]
      && r[i..i + |rep|] == rep
      && r[i + |rep|..] == s[i + |pat|..]
  {
    match IndexOf(s, pat)
    case None => s
    case Some(i) => s[..i] + rep + s[i + |pat|..]
  }

  /** Upper-casing of one ASCII letter; every other character is left alone. */
  function UpperChar(c: char): char
  {
    if 'a' <= c <= 'z' then (c as int - 'a' as int + 'A' as int) as char else c
  }

  /** `String.prototype.toUpperCase`, restricted to ASCII letters. */
  function ToUpper(s: string): (r: string)
    ensures |r| == |s|
    ensures forall k | 0 <= k < |s| :: r[k] == UpperChar(s[k])
  {
    seq(|s|, k requires 0 <= k < |s| => UpperChar(s[k]))
  }

  /** Upper-casing leaves no ASCII lower-case letter behind and is idempotent. */
  lemma ToUpperIdempotent(s: string)
    ensures forall k | 0 <= k < |ToUpper(s)| :: !('a' <= ToUpper(s)[k] <= 'z')
    ensures ToUpper(ToUpper(s)) == ToUpper(s)
  {
  }

  predicate IsDigit(c: char)
  {
    '0' <= c <= '9'
  }

  function DigitChar(d: nat): (c: char)
    requires d < 10
    ensures IsDigit(c)
  {
    ('0' as int + d) as char
  }

  function DigitValue(c: char): (d: nat)
    requires IsDigit(c)
    ensures d < 10 && DigitChar(d) == c
  {
    c as int - '0' as int
  }

  /** `n.toString()` for a natural number: its decimal digits, most significant first. */
  function Decimal(n: nat): (r: string)
    ensures |r| > 0
    ensures forall k | 0 <= k < |r| :: IsDigit(r[k])
  {
    if n < 10 then [DigitChar(n)] else Decimal(n / 10) + [DigitChar(n % 10)]
  }

  /** Reads a string of decimal digits back as a number (the partner of `Decimal`). */
  function ParseDecimal(s: string): nat
    requires forall k | 0 <= k < |s| :: IsDigit(s[k])
  {
    if s == [] then 0 else ParseDecimal(s[..|s| - 1]) * 10 + DigitValue(s[|s| - 1])
  }

  /** Decimal rendering is reversible, hence two different clock values never give the same id. */
  lemma {:induction false} DecimalRoundTrip(n: nat)
    ensures ParseDecimal(Decimal(n)) == n
  {
    if n >= 10 {
      var s := Decimal(n);
      assert s[..|s| - 1] == Decimal(n / 10);
      DecimalRoundTrip(n / 10);
    }
  }

  lemma DecimalInjective(m: nat, n: nat)
    ensures Decimal(m) == Decimal(n) ==> m == n
  {
    DecimalRoundTrip(m);
    DecimalRoundTrip(n);
  }
}

=== FILE: wrappers.dfy ===
/** Optional values: a JavaScript value that may be `undefined`/`null`, or a lookup that may miss. */
module Wrappers {

  datatype Option<+T> = None | Some(value: T) {

    /** The wrapped value, or `default` when there is none (JavaScript's `x || default` on objects). */
    function GetOr(default: T): T
    {
      match this
      case Some(v) => v
      case None => default
    }
  }
}
